=== FILE: README.md ===
# User–account membership model

A Dafny model of the core of a small Spring Boot backend that exposes `User`
and `Account` resources related many-to-many. The only logic in the
repository is the membership association between users and accounts. Each
side holds a collection that names the other side, and the services add to or
remove from those collections. Each operation is modelled as a pure state
transition, and the proofs are about that association.

The repository contains two variants of the services, and both are modelled.

- **Repository-backed** (the `com` package). Users and accounts are rows in
  two tables (`Repository.Repo`). A user's `accounts` set is the owning side
  of the association. An account's `users` set is the inverse side.
  `Membership` models the user service, `Accounts` the account service, and
  `UsersApi` the HTTP delegate for users. That delegate includes the
  `poc.users.read` role guard, and `Http` models the guard itself.
  `Errors` models the exception-class → status table.
- **In-memory** (the `org` package). Users live in an in-memory map, and an
  `int` counter issues their ids (`MemoryUsers`). Each user holds a list of
  account ids. Accounts live in a repository whose rows hold a users
  collection (`RepoAccounts`). `MemoryMembership` models the user service's
  two-sided operations. `MemoryUsersApi` and `MemoryAccountsApi` model the
  HTTP delegates, whose create endpoints loop over the submitted ids.
  `Lists` models `List.remove(Object)`; `List.contains` is sequence membership.

The central invariant is `Membership.Symmetric` and its in-memory
counterpart `MemoryMembership.Symmetric`: a user lists an account exactly
when that account lists the user.

## Modelling decisions

- A repository is a map from id to row, plus an order for `findAll` (the
  database fixes none; the model lists rows in insertion order), plus the next
  identity value. `save` inserts under a fresh id
  when the entity's id is null or not stored. It overwrites the row when the id
  is stored. A null id is a new entity, which Spring Data persists. A non-null
  id is merged, and for an id the table does not hold the model inserts a new
  row (see "## Left out").
- A Java set of entities is modelled as a set of ids. Within one persistence
  context each id has one managed instance, so membership by identity and
  membership by id agree.
- Java `null` is `None`. This covers a missing id, a missing list and a
  null entry in a list of ids.
- The in-memory counter is a Java `int`, and `MemoryUsers.IncrementInt`
  writes out its wrap-around. Database ids (`Long`) are unbounded integers.
- The two packages do not agree on types, so some choices were needed:
  - The in-memory account service calls `getUsers()` on an account. Only the
    repository-backed `AccountEntity` declares that method, so both variants
    share `Accounts.AccountEntity` and its set of user ids.
  - That service checks for users in the user repository, which the in-memory
    user service never writes. The model keeps this as a separate set of ids,
    `RepoAccounts.AccountStore.knownUsers`.
  - An account created through the in-memory API starts with no members. Its
    submitted `userIds` list only drives the link loop.

### Behaviour of the code worth knowing

- Link and unlink with an unknown id do nothing and answer 200.
- `toEntity` copies the submitted id. So `createUser` with an id that is
  already stored overwrites that user and empties its accounts set
  (`Membership.CreateUser`). Only a submission with no id, or an unknown one,
  gets a fresh id. The accounts that listed the overwritten user still list
  it, so such a create breaks the association
  (`Membership.OverwritingCreateBreaksSymmetric`).
- `toModel` never fills in `accountIds` or `userIds`. Both lists are
  always empty on the read path.

### Behaviour the proofs bring out

- In the in-memory variant, `createUser` keeps the submitted list as it is,
  duplicates included. Unlink removes only the first occurrence. A user
  created with `accountIds: [5, 5]` therefore still lists account 5 after
  `DELETE /users/{id}/accounts/5`, while account 5 no longer lists the user
  (`MemoryMembership.DuplicateSurvivesUnlink`). Likewise, a user that exists
  only in memory is linked on its own side only
  (`MemoryMembership.UnknownUserLinksOneSide`). Symmetry is therefore proved
  only under `MemoryMembership.Aligned`: lists have no duplicates, and every
  in-memory user is known to the user repository.
- The in-memory id counter wraps from 2^31-1 to -2^31
  (`MemoryUsers.CounterWrapsAtIntMax`). Ids are fresh and increasing only
  until then.

## Model

| member | source | states |
|---|---|---|
| Repository.Save | src/main/java/com/cekinmezyucel/springboot/poc/repository/UserRepository.java:6 | the saved entity always comes back with an id; a null or unknown id is inserted under an identity no row had and is appended to the model's listing order; a stored id overwrites only that row; the table stays well formed |
| Repository.SaveThenFind | src/main/java/com/cekinmezyucel/springboot/poc/repository/UserRepository.java:6 | a later findById (`Repository.FindById`) sees the saved entity under its id and every other id as before |
| Repository.FindAll | src/main/java/com/cekinmezyucel/springboot/poc/repository/AccountRepository.java:7 | findAll returns one entity per stored row, each exactly once with its stored columns, in the model's listing order |
| Accounts.ModelRoundTrip | src/main/java/com/cekinmezyucel/springboot/poc/service/AccountService.java:27-41 | model → entity → model (`Accounts.ToEntity` then `Accounts.ToModel`) keeps id, name and industry (through the type column) and empties userIds; it is the identity exactly for models with no userIds |
| Accounts.EntityRoundTrip | src/main/java/com/cekinmezyucel/springboot/poc/service/AccountService.java:27-41 | entity → model → entity (`Accounts.ToModel` then `Accounts.ToEntity`) keeps id, name and type and loses only the members |
| Accounts.GetAccounts | src/main/java/com/cekinmezyucel/springboot/poc/service/AccountService.java:19-21 | one model per stored row, in repository order, with the stored name, type as industry, and no userIds |
| Accounts.GetAccountsListsEachAccountOnce | src/main/java/com/cekinmezyucel/springboot/poc/service/AccountService.java:19-21 | an id appears in the listing iff it is stored, and then exactly once, with its stored name and type |
| Accounts.CreateAccount | src/main/java/com/cekinmezyucel/springboot/poc/service/AccountService.java:23-25 | the created account has an id and the submitted name and industry; it is stored under that id with no members; the table afterwards is the old table with just that row set, so nothing else is added or changed |
| Accounts.CreateThenList | src/main/java/com/cekinmezyucel/springboot/poc/service/AccountService.java:19-25 | creating an account with no usable id appends exactly the created account to the listing (under the model's insertion-order listing) |
| Membership.ModelRoundTrip | src/main/java/com/cekinmezyucel/springboot/poc/service/UserService.java:24-40 | model → entity → model (`Membership.ToEntity` then `Membership.ToModel`) keeps id, email, name and surname and empties accountIds |
| Membership.EntityRoundTrip | src/main/java/com/cekinmezyucel/springboot/poc/service/UserService.java:24-40 | entity → model → entity (`Membership.ToModel` then `Membership.ToEntity`) loses only the accounts set |
| Membership.GetUsers | src/main/java/com/cekinmezyucel/springboot/poc/service/UserService.java:42-44 | one model per stored user, in repository order, with the stored scalar fields and no accountIds |
| Membership.GetUsersListsEachUserOnce | src/main/java/com/cekinmezyucel/springboot/poc/service/UserService.java:42-44 | an id appears in the listing iff it is stored, and then exactly once |
| Membership.CreateUser | src/main/java/com/cekinmezyucel/springboot/poc/service/UserService.java:46-48 | the created user has a non-null id and the submitted fields, and is stored under that id with no accounts; a missing or unknown id yields a fresh id, a stored one is overwritten; the user table afterwards is the old table with just that row set |
| Membership.CreateThenList | src/main/java/com/cekinmezyucel/springboot/poc/service/UserService.java:42-48 | creating a user with no usable id appends exactly the created user to the listing, with the submitted fields (under the model's insertion-order listing) |
| Membership.CreateKeepsSymmetric | src/main/java/com/cekinmezyucel/springboot/poc/service/UserService.java:46-48 | creating a fresh user keeps the association symmetric |
| Membership.OverwritingCreateBreaksSymmetric | src/main/java/com/cekinmezyucel/springboot/poc/service/UserService.java:46-48 | creating a user under a stored id that an account lists leaves the account listing the user while the new row lists no accounts, so the association is no longer symmetric |
| Membership.Link | src/main/java/com/cekinmezyucel/springboot/poc/service/UserService.java:76-85 | with both ids stored, the user's accounts gain exactly that account and nothing else changes; otherwise the state is unchanged; the account side is never touched |
| Membership.Unlink | src/main/java/com/cekinmezyucel/springboot/poc/service/UserService.java:87-96 | with both ids stored, the user's accounts lose exactly that account and nothing else changes; otherwise the state is unchanged |
| Membership.LinkWithMembership | src/main/java/com/cekinmezyucel/springboot/poc/service/UserService.java:50-61 | with both ids stored, afterwards the user lists the account and the account lists the user; every other pair keeps its membership on both sides; an unknown id changes nothing; only the membership columns change, and no row is added, removed or reordered |
| Membership.UnlinkWithMembership | src/main/java/com/cekinmezyucel/springboot/poc/service/UserService.java:63-74 | with both ids stored, afterwards neither side lists the other; every other pair keeps its membership; an unknown id changes nothing; only the membership columns change, and no row is added, removed or reordered |
| Membership.LinkPreservesSymmetric | src/main/java/com/cekinmezyucel/springboot/poc/service/UserService.java:50-61 | the two-sided link keeps the invariant that a user lists an account iff the account lists the user |
| Membership.UnlinkPreservesSymmetric | src/main/java/com/cekinmezyucel/springboot/poc/service/UserService.java:63-74 | the two-sided unlink keeps that invariant |
| Membership.LinkIdempotent | src/main/java/com/cekinmezyucel/springboot/poc/service/UserService.java:50-85 | linking twice equals linking once, for the owning-side link and for the two-sided link |
| Membership.UnlinkUnlinkedIsNoOp | src/main/java/com/cekinmezyucel/springboot/poc/service/UserService.java:63-96 | unlinking a pair that neither side lists leaves both tables unchanged |
| Membership.UnlinkUndoesLink | src/main/java/com/cekinmezyucel/springboot/poc/service/UserService.java:50-96 | unlink after link on a previously unlinked pair restores both tables exactly |
| Http.RolesAllowed | src/main/java/com/cekinmezyucel/springboot/poc/api/UsersApiImpl.java:23 | the guard lets a call through iff the caller's token grants the prefixed role; no token is rejected with 401, a token without it with 403 |
| Http.GuardMatchesClaim | src/main/java/com/cekinmezyucel/springboot/poc/util/ApplicationConstants.java:9-12 | with the ROLE_ prefix added to every roles-claim value, a token passes the guard for a role iff its claim names that role |
| UsersApi.GetUsers | src/main/java/com/cekinmezyucel/springboot/poc/api/UsersApiImpl.java:22-26 | 200 with the service's listing iff the caller holds the read authority; 401 iff there is no token; otherwise 403 with no body |
| UsersApi.GetUsersAuthBoundary | src/main/java/com/cekinmezyucel/springboot/poc/api/UsersApiImpl.java:22-26 | no token gives 401, a roles claim without poc.users.read gives 403, with it 200 |
| UsersApi.CreateUser | src/main/java/com/cekinmezyucel/springboot/poc/api/UsersApiImpl.java:28-31 | 201 whose body is exactly the user the service's createUser returns (an id, the submitted fields, no account ids), and the state is the one that createUser leaves |
| UsersApi.LinkUserToAccount | src/main/java/com/cekinmezyucel/springboot/poc/api/UsersApiImpl.java:33-37 | always 200 with no body; the state is the one linkUserToAccountWithMembership leaves: with both ids stored both sides list each other, an unknown id leaves the state unchanged, and the invariant is kept |
| UsersApi.UnlinkUserFromAccount | src/main/java/com/cekinmezyucel/springboot/poc/api/UsersApiImpl.java:39-43 | always 200 with no body; the state is the one unlinkUserFromAccountWithMembership leaves: afterwards neither side lists the other, and the invariant is kept |
| Errors.Handle | src/main/java/com/cekinmezyucel/springboot/poc/exception/GlobalExceptionHandler.java:15-41 | every handled exception answers a 4xx or 5xx status with its message as the body; the status is 5xx exactly for a system exception |
| Errors.StatusIdentifiesClass | src/main/java/com/cekinmezyucel/springboot/poc/exception/GlobalExceptionHandler.java:15-41 | the answered status determines the exception class, and each class is answered with exactly one status |
| Errors.StatusInjective | src/main/java/com/cekinmezyucel/springboot/poc/exception/GlobalExceptionHandler.java:15-41 | no two exception classes share a status |
| Lists.RemoveFirst | src/main/java/org/cekinmezyucel/springboot/poc/service/UserService.java:71 | removing an id by value shortens the list by one exactly when the id occurs in it |
| Lists.RemoveFirstCounts | src/main/java/org/cekinmezyucel/springboot/poc/service/UserService.java:71 | the removal takes away exactly one copy of the id (if any) and keeps every other element with its count |
| Lists.RemoveAbsent | src/main/java/org/cekinmezyucel/springboot/poc/service/UserService.java:71 | removing an id the list does not hold leaves it unchanged |
| Lists.RemoveFirstSplices | src/main/java/org/cekinmezyucel/springboot/poc/service/UserService.java:71 | the removal cuts out the first position holding the id and keeps the rest in order |
| Lists.RemoveAppended | src/main/java/org/cekinmezyucel/springboot/poc/service/UserService.java:61-73 | appending an absent id and then removing it gives back the original list |
| Lists.RemoveFromDistinct | src/main/java/org/cekinmezyucel/springboot/poc/service/UserService.java:71 | in a list without duplicates the removal leaves no occurrence and no duplicate |
| MemoryUsers.IncrementInt | src/main/java/org/cekinmezyucel/springboot/poc/service/UserService.java:46-53 | the counter increment stays within Java int, adds one below the maximum, and wraps to the minimum at it |
| MemoryUsers.Init | src/main/java/org/cekinmezyucel/springboot/poc/service/UserService.java:45-46 | the store starts empty with the counter at 1 |
| MemoryUsers.CreateUser | src/main/java/org/cekinmezyucel/springboot/poc/service/UserService.java:52-59 | the created user gets the counter's value as id, a null list becomes empty and a given list is kept as is, it is stored under its id, other users are untouched and the counter advances |
| MemoryUsers.CreateUserIssuesFreshId | src/main/java/org/cekinmezyucel/springboot/poc/service/UserService.java:45-59 | below the int maximum, each created id is held by no stored user and exceeds all of them |
| MemoryUsers.SuccessiveIdsIncrease | src/main/java/org/cekinmezyucel/springboot/poc/service/UserService.java:52-53 | two creations in a row get consecutive ids |
| MemoryUsers.CounterWrapsAtIntMax | src/main/java/org/cekinmezyucel/springboot/poc/service/UserService.java:46-53 | at the int maximum the next id after that is the int minimum, below the previous one |
| MemoryUsers.GetUsers | src/main/java/org/cekinmezyucel/springboot/poc/service/UserService.java:48-50 | the listing has one entry per stored user, holds every stored user and nothing else |
| MemoryUsers.Link | src/main/java/org/cekinmezyucel/springboot/poc/service/UserService.java:61-66 | for a stored user the id ends up in the list, appended only if absent; other users, the counter and an unknown user's case are unchanged |
| MemoryUsers.Unlink | src/main/java/org/cekinmezyucel/springboot/poc/service/UserService.java:68-73 | for a stored user the list loses exactly one copy of the id if it held one; everything else is unchanged |
| MemoryUsers.LinkAddsNoDuplicate | src/main/java/org/cekinmezyucel/springboot/poc/service/UserService.java:61-66 | linking never raises the count of any id above one and keeps other ids' counts; a duplicate-free list stays duplicate-free |
| MemoryUsers.LinkIdempotent | src/main/java/org/cekinmezyucel/springboot/poc/service/UserService.java:61-66 | linking twice equals linking once |
| MemoryUsers.UnlinkAbsentIsNoOp | src/main/java/org/cekinmezyucel/springboot/poc/service/UserService.java:68-73 | unlinking an absent id, or for an unknown user, changes nothing |
| MemoryUsers.UnlinkRemovesFirstOccurrence | src/main/java/org/cekinmezyucel/springboot/poc/service/UserService.java:68-73 | unlink deletes the first occurrence and keeps the order of the rest; in a duplicate-free list no occurrence remains |
| MemoryUsers.UnlinkUndoesLink | src/main/java/org/cekinmezyucel/springboot/poc/service/UserService.java:61-73 | link then unlink of an id not previously in the list restores the whole store |
| MemoryUsers.UnlinkFromDistinctList | src/main/java/org/cekinmezyucel/springboot/poc/service/UserService.java:68-73 | in a duplicate-free list unlink removes the id entirely and keeps every other id |
| RepoAccounts.GetAccounts | src/main/java/org/cekinmezyucel/springboot/poc/service/AccountService.java:23-25 | one entry per stored account, each with its stored row, every stored account present, no id twice |
| RepoAccounts.CreateAccount | src/main/java/org/cekinmezyucel/springboot/poc/service/AccountService.java:27-29 | returns the saved entity: the submitted row with an id, stored under it; the table afterwards is the old table with just that row set; a null or unknown id gets an id no account had; the user repository is untouched |
| RepoAccounts.LinkAccountToUser | src/main/java/org/cekinmezyucel/springboot/poc/service/AccountService.java:31-40 | with the account stored and the user known, the account's users gain exactly that user and its name and type are kept; otherwise nothing changes; the user repository is never touched |
| RepoAccounts.UnlinkAccountFromUser | src/main/java/org/cekinmezyucel/springboot/poc/service/AccountService.java:42-51 | with both present the account's users lose exactly that user; otherwise nothing changes |
| RepoAccounts.LinkThenUnlink | src/main/java/org/cekinmezyucel/springboot/poc/service/AccountService.java:31-51 | linking twice equals linking once; unlink after link of a user not listed restores the store |
| MemoryMembership.LinkWithMembership | src/main/java/org/cekinmezyucel/springboot/poc/service/UserService.java:32-37 | the user-side link always happens; the account side gains the user only when the account service is present, the account stored and the user known; without the account service the account side is untouched; with it the account side is exactly what the account service's linkAccountToUser leaves, so a missing account or unknown user changes nothing there and other accounts are untouched |
| MemoryMembership.UnlinkWithMembership | src/main/java/org/cekinmezyucel/springboot/poc/service/UserService.java:39-44 | the user-side unlink always happens; with the account service present and both ids found the account no longer lists the user; with it the account side is exactly what unlinkAccountFromUser leaves, and without it the account side is untouched |
| MemoryMembership.LinkPreservesSymmetric | src/main/java/org/cekinmezyucel/springboot/poc/service/UserService.java:32-37 | with the account service present and the sides aligned, the two-sided link keeps the association symmetric and aligned |
| MemoryMembership.UnlinkPreservesSymmetric | src/main/java/org/cekinmezyucel/springboot/poc/service/UserService.java:39-44 | with the account service present and the sides aligned, the two-sided unlink keeps the association symmetric and aligned |
| MemoryMembership.DuplicateSurvivesUnlink | src/main/java/org/cekinmezyucel/springboot/poc/service/UserService.java:39-73 | a user list naming an account twice still names it after the two-sided unlink while the account no longer lists the user |
| MemoryMembership.UnknownUserLinksOneSide | src/main/java/org/cekinmezyucel/springboot/poc/service/AccountService.java:31-40 | a stored in-memory user that the user repository does not hold gets the account on its own list, while the account service leaves the account without the user, so the association is no longer symmetric |
| MemoryMembership.CreateUserWithMemberships | src/main/java/org/cekinmezyucel/springboot/poc/service/UserService.java:19-30 | returns the created user and leaves the user store as the plain create left it; each stored account named by a non-null id gains the new user exactly when the account service is present and the user is known; no other account changes, every account keeps its name and type, and the listing order and identity counter are unchanged |
| MemoryUsersApi.GetUsers | src/main/java/org/cekinmezyucel/springboot/poc/api/UsersApiImpl.java:22-25 | 200 whose body holds every stored user, one entry each |
| MemoryUsersApi.CreateUser | src/main/java/org/cekinmezyucel/springboot/poc/api/UsersApiImpl.java:27-40 | 201 whose body is the created user; the user's own list ends equal to the submitted one (or empty); each stored account named by a non-null id gains the user exactly when the user is known, others unchanged; every account keeps its name and type, and the listing order and identity counter are unchanged |
| MemoryUsersApi.LinkUserToAccount | src/main/java/org/cekinmezyucel/springboot/poc/api/UsersApiImpl.java:42-47 | 200; a stored user lists the account, and a stored account lists a known user; the new state is the user store's link together with the account service's link, so no other user or account changes |
| MemoryUsersApi.UnlinkUserFromAccount | src/main/java/org/cekinmezyucel/springboot/poc/api/UsersApiImpl.java:49-54 | 200; the user's list loses one copy of the id and a stored account no longer lists a known user; the new state is the user store's unlink together with the account service's unlink, so no other user or account changes |
| MemoryUsersApi.EndpointsMatchMembership | src/main/java/org/cekinmezyucel/springboot/poc/api/UsersApiImpl.java:42-54 | the endpoints' state change equals the user service's two-sided link and unlink with the account service present, so they keep the association symmetric |
| MemoryAccountsApi.GetAccounts | src/main/java/org/cekinmezyucel/springboot/poc/api/AccountsApiImpl.java:22-25 | 200 whose body holds every stored account, one entry each |
| MemoryAccountsApi.CreateAccount | src/main/java/org/cekinmezyucel/springboot/poc/api/AccountsApiImpl.java:27-41 | 201 whose body is the submitted account with its id, which is one no account had unless the submitted id was stored; the account key set grows by exactly that id; the stored account lists exactly the known users its non-null ids name; each named stored user gains the account id once, appended only if absent; no other user or account changes |

## Left out

- HTTP routing, JSON serialisation and the generated controller interfaces: each delegate is modelled as a function from state and arguments to a new state and a response.
- The security filter chain and JWT decoding: only the role guard on listing users is modelled, including its 401 for a missing token. The 401 that the filter chain gives every other endpoint without a token is not modelled.
- The health endpoint: its status comes from the framework's aggregate health, which this model cannot see.
- The repository-backed accounts API delegate: it passes calls straight to `Accounts` and adds nothing.
- JPA persistence: the join table, and the fact that saving the inverse side does not persist it. Both collections are modelled as plain state that the services edit.
- Transactions and concurrency: the model is sequential, and each operation is one atomic step.
- Logging in the exception handler. The exception classes themselves are not part of this model; each is represented by its class and message.
- The generated wire model classes are not part of this model. Their id lists are taken to default to empty.
- Java strings: a null string is copied like any other value, so it is not distinguished.
- MemoryUsers.GetUsers: does not fix the order of the returned list, because the iteration order of a hash map is unspecified.
- RepoAccounts.GetAccounts: does not state the order of the listing; the repository-backed `Accounts.GetAccounts` states it.
- MemoryUsers.CreateUserIssuesFreshId: holds only while the int counter is below its maximum; the source's counter wraps after that.
- Overflow of database identities (`Long` in the repository-backed package, `Integer` in the in-memory one): not modelled, since ids are unbounded integers.
- Repository.FindAll: the database promises no row order for `findAll` (the query has no ORDER BY, and an update may move a row). The model picks one order: inserts are appended and overwrites keep their place. `Accounts.CreateThenList` and `Membership.CreateThenList` hold for that choice only; the order-free facts are in `Accounts.GetAccountsListsEachAccountOnce` and `Membership.GetUsersListsEachUserOnce`.
- Repository.Save: an entity whose id is set but not stored is inserted under a fresh identity. Spring Data hands such an entity to the JPA provider's merge, and what merge does with an unknown generated id depends on the provider and its version (some insert a new row, others raise an optimistic-locking error); the model fixes the insert.

=== FILE: accounts.dfy ===
/**
 The repository-backed account service: listing and creating accounts, and the
 mapping between the stored account and the wire `Account`, where the stored
 `type` column is published as `industry`.
 */
module Accounts {
  import opened Wrappers
  import opened Repository

  /** The wire model of an account. */
  datatype Account = Account(id: Option<int>, name: string, industry: string, userIds: seq<int>)

  /** The persisted columns of an accounts row (`kind` is the `type` column)
      together with the inverse side of the membership association: the ids of
      the users that belong to the account. */
  datatype AccountEntity = AccountEntity(name: string, kind: string, users: set<int>)

  /** Entity to wire model; the membership ids are never filled in. */
  function ToModel(e: Entity<AccountEntity>): Account {
    Account(e.id, e.row.name, e.row.kind, [])
  }

  /** Wire model to entity, keeping the submitted id; the new entity has no members. */
  function ToEntity(m: Account): Entity<AccountEntity> {
    Entity(m.id, AccountEntity(m.name, m.industry, {}))
  }

  /** A wire account survives the trip through the entity except for its
      membership ids, which come back empty. */
  lemma ModelRoundTrip(m: Account)
    ensures ToModel(ToEntity(m)).id == m.id
    ensures ToModel(ToEntity(m)).name == m.name
    ensures ToModel(ToEntity(m)).industry == m.industry
    ensures ToModel(ToEntity(m)).userIds == []
    ensures ToModel(ToEntity(m)) == m <==> m.userIds == []
  {
  }

  /** An entity survives the trip through the wire model except for its members. */
  lemma EntityRoundTrip(e: Entity<AccountEntity>)
    ensures ToEntity(ToModel(e)).id == e.id
    ensures ToEntity(ToModel(e)).row.name == e.row.name
    ensures ToEntity(ToModel(e)).row.kind == e.row.kind
    ensures ToEntity(ToModel(e)) == e <==> e.row.users == {}
  {
  }

  /** `getAccounts`: every stored account, in table order, as a wire model. */
  function GetAccounts(repo: Repo<AccountEntity>): (r: seq<Account>)
    requires Valid(repo)
    ensures |r| == |repo.order| == |repo.rows|
    ensures forall i :: 0 <= i < |r| ==>
      && r[i].id == Some(repo.order[i]) && repo.order[i] in repo.rows
      && r[i].name == repo.rows[repo.order[i]].name
      && r[i].industry == repo.rows[repo.order[i]].kind
      && r[i].userIds == []
  {
    var rows := FindAll(repo);
    seq(|rows|, i requires 0 <= i < |rows| => ToModel(rows[i]))
  }

  /** Every stored account is listed exactly once, with its stored name and type. */
  lemma GetAccountsListsEachAccountOnce(repo: Repo<AccountEntity>, id: int)
    requires Valid(repo)
    ensures var r := GetAccounts(repo);
      id in repo.rows <==> exists i :: 0 <= i < |r| && r[i].id == Some(id)
    ensures var r := GetAccounts(repo);
      forall i, j :: 0 <= i < |r| && 0 <= j < |r| && r[i].id == Some(id) && r[j].id == Some(id) ==> i == j
    ensures var r := GetAccounts(repo);
      forall i :: 0 <= i < |r| && r[i].id == Some(id) ==>
        r[i].name == repo.rows[id].name && r[i].industry == repo.rows[id].kind
  {
    var r := GetAccounts(repo);
    if id in repo.rows {
      var i :| 0 <= i < |repo.order| && repo.order[i] == id;
      assert r[i].id == Some(id);
    }
  }

  /** `createAccount`: map to an entity, save it, map the saved entity back. */
  function CreateAccount(repo: Repo<AccountEntity>, m: Account): (res: (Repo<AccountEntity>, Account))
    requires Valid(repo)
    ensures Valid(res.0)
    ensures res.1.id.Some? && res.1.name == m.name && res.1.industry == m.industry && res.1.userIds == []
    ensures FindById(res.0, res.1.id.value) == Some(Entity(res.1.id, AccountEntity(m.name, m.industry, {})))
    ensures res.0.rows == repo.rows[res.1.id.value := AccountEntity(m.name, m.industry, {})]
    ensures forall k :: k in repo.rows && Some(k) != res.1.id ==> k in res.0.rows && res.0.rows[k] == repo.rows[k]
    ensures m.id.None? || m.id.value !in repo.rows ==> res.1.id.value !in repo.rows
    ensures m.id.Some? && m.id.value in repo.rows ==> res.1.id == m.id
  {
    var (repo', saved) := Save(repo, ToEntity(m));
    (repo', ToModel(saved))
  }

  /** Creating an account with no usable id appends it to the listing. */
  lemma CreateThenList(repo: Repo<AccountEntity>, m: Account)
    requires Valid(repo)
    requires m.id.None? || m.id.value !in repo.rows
    ensures var (repo', created) := CreateAccount(repo, m);
      GetAccounts(repo') == GetAccounts(repo) + [created]
  {
    var (repo', created) := CreateAccount(repo, m);
    var before, after := GetAccounts(repo), GetAccounts(repo');
    assert |after| == |before| + 1;
    forall i | 0 <= i < |before| ensures after[i] == before[i] {
      assert repo.order[i] in repo.rows;
      assert repo'.order[i] == repo.order[i];
    }
  }
}

=== FILE: errors.dfy ===
/**
 The application-wide exception handler: each application exception class is
 answered with one fixed status code and the exception's message as body.
 */
module Errors {
  import opened Wrappers
  import opened Http

  datatype ErrorClass = ResourceNotFound | Validation | ConflictError | SystemError

  /** An application exception: its class and its message. */
  datatype AppException = AppException(kind: ErrorClass, message: string)

  function StatusOf(c: ErrorClass): int {
    match c
    case ResourceNotFound => NotFound
    case Validation => BadRequest
    case ConflictError => Conflict
    case SystemError => InternalServerError
  }

  /** The handler: the class's status, with the message as the body. */
  function Handle(ex: AppException): (r: Response<string>)
    ensures r.body == Some(ex.message)
    ensures 400 <= r.status < 600
    ensures r.status >= 500 <==> ex.kind == SystemError
  {
    Response(StatusOf(ex.kind), Some(ex.message))
  }

  /** Which exception class, if any, a client can infer from an error status. */
  function ClassOfStatus(status: int): Option<ErrorClass> {
    if status == NotFound then Some(ResourceNotFound)
    else if status == BadRequest then Some(Validation)
    else if status == Conflict then Some(ConflictError)
    else if status == InternalServerError then Some(SystemError)
    else None
  }

  /** The status of a handled exception identifies its class, and conversely
      every status the table uses comes from exactly that class. */
  lemma StatusIdentifiesClass(ex: AppException, status: int)
    ensures ClassOfStatus(Handle(ex).status) == Some(ex.kind)
    ensures ClassOfStatus(status) == Some(ex.kind) <==> Handle(ex).status == status
  {
  }

  /** No two exception classes share a status. */
  lemma StatusInjective(c: ErrorClass, d: ErrorClass)
    ensures StatusOf(c) == StatusOf(d) ==> c == d
  {
  }
}

=== FILE: http.dfy ===
/**
 HTTP responses, and the caller as the bearer-token filter presents it to the
 API delegates.
 */
module Http {
  import opened Wrappers

  const Ok := 200
  const Created := 201
  const BadRequest := 400
  const Unauthorized := 401
  const Forbidden := 403
  const NotFound := 404
  const Conflict := 409
  const InternalServerError := 500

  /** A `ResponseEntity`: a status code and an optional body. */
  datatype Response<B> = Response(status: int, body: Option<B>)

  /** The authenticated caller: no bearer token at all, or a token whose
      granted authorities are known. */
  datatype Principal = Anonymous | Bearer(authorities: set<string>)

  /** The prefix the token converter puts in front of every role claim value,
      which is also the prefix the role annotation expects. */
  const AuthorityPrefix: string := "ROLE_"

  /** The authorities granted for a token whose roles claim holds `roles`. */
  function GrantedAuthorities(roles: set<string>): set<string> {
    set r | r in roles :: AuthorityPrefix + r
  }

  /** The role guard on a handler: `None` lets the call through, `Some(status)`
      rejects it with that status. */
  function RolesAllowed(p: Principal, role: string): (rejection: Option<int>)
    ensures rejection == None <==> p.Bearer? && AuthorityPrefix + role in p.authorities
    ensures p.Anonymous? ==> rejection == Some(Unauthorized)
    ensures p.Bearer? && rejection.Some? ==> rejection == Some(Forbidden)
  {
    match p
    case Anonymous => Some(Unauthorized)
    case Bearer(auths) => if AuthorityPrefix + role in auths then None else Some(Forbidden)
  }

  /** A token passes the guard for `role` exactly when its roles claim names
      `role` itself: the prefix never makes two different claim values collide. */
  lemma GuardMatchesClaim(roles: set<string>, role: string)
    ensures RolesAllowed(Bearer(GrantedAuthorities(roles)), role) == None <==> role in roles
  {
    if AuthorityPrefix + role in GrantedAuthorities(roles) {
      var r :| r in roles && AuthorityPrefix + r == AuthorityPrefix + role;
      PrefixCancels(AuthorityPrefix, r, role);
    }
  }

  lemma PrefixCancels(p: string, x: string, y: string)
    requires p + x == p + y
    ensures x == y
  {
    assert x == (p + x)[|p|..];
    assert y == (p + y)[|p|..];
  }
}

=== FILE: lists.dfy ===
/**
 `java.util.List.remove(Object)`, which the in-memory user store relies on:
 it deletes the first element equal to its argument. (`contains` needs no
 definition here: it is sequence membership, `x in xs`.)
 */
module Lists {

  ghost predicate NoDuplicates<T>(xs: seq<T>) {
    forall i, j :: 0 <= i < j < |xs| ==> xs[i] != xs[j]
  }

  /** `remove(Object)`: `xs` without its first occurrence of `x`. */
  function RemoveFirst<T(==)>(xs: seq<T>, x: T): (r: seq<T>)
    ensures |r| == if x in xs then |xs| - 1 else |xs|
  {
    if xs == [] then []
    else
      assert xs == [xs[0]] + xs[1..];
      if xs[0] == x then xs[1..]
      else [xs[0]] + RemoveFirst(xs[1..], x)
  }

  /** The removal takes away exactly one copy of `x`, if there is one, and
      keeps every other element with its count. */
  lemma {:induction false} RemoveFirstCounts<T>(xs: seq<T>, x: T)
    ensures multiset(RemoveFirst(xs, x)) == multiset(xs) - multiset{x}
  {
    if xs != [] {
      assert xs == [xs[0]] + xs[1..];
      if xs[0] != x {
        RemoveFirstCounts(xs[1..], x);
      }
    }
  }

  /** The position of the first occurrence of `x`. */
  function FirstIndex<T(==)>(xs: seq<T>, x: T): (i: nat)
    requires x in xs
    ensures i < |xs| && xs[i] == x && x !in xs[..i]
  {
    if xs[0] == x then 0
    else
      var i := FirstIndex(xs[1..], x) + 1;
      assert xs[..i] == [xs[0]] + xs[1..][..i - 1];
      i
  }

  /** Removing an element the list does not hold leaves it unchanged. */
  lemma {:induction false} RemoveAbsent<T>(xs: seq<T>, x: T)
    requires x !in xs
    ensures RemoveFirst(xs, x) == xs
  {
    if xs != [] {
      assert xs[0] != x;
      RemoveAbsent(xs[1..], x);
      assert xs == [xs[0]] + xs[1..];
    }
  }

  /** The removal cuts out exactly one position, the first holding `x`. */
  lemma {:induction false} RemoveFirstSplices<T>(xs: seq<T>, x: T)
    requires x in xs
    ensures var i := FirstIndex(xs, x); RemoveFirst(xs, x) == xs[..i] + xs[i + 1..]
  {
    if xs[0] == x {
      assert FirstIndex(xs, x) == 0;
      assert xs[..0] + xs[1..] == xs[1..];
    } else {
      var tail := xs[1..];
      assert x in tail;
      RemoveFirstSplices(tail, x);
      var i := FirstIndex(tail, x);
      var left, right := tail[..i], tail[i + 1..];
      assert RemoveFirst(tail, x) == left + right;
      assert RemoveFirst(xs, x) == [xs[0]] + (left + right);
      assert FirstIndex(xs, x) == i + 1;
      assert xs[..i + 1] == [xs[0]] + left;
      assert xs[i + 2..] == right;
    }
  }

  /** Appending an absent element and then removing it gives back the list. */
  lemma {:induction false} RemoveAppended<T>(xs: seq<T>, x: T)
    requires x !in xs
    ensures RemoveFirst(xs + [x], x) == xs
  {
    if xs == [] {
      assert [x][1..] == [];
    } else {
      assert (xs + [x])[1..] == xs[1..] + [x];
      RemoveAppended(xs[1..], x);
      assert xs == [xs[0]] + xs[1..];
    }
  }

  /** In a duplicate-free list the removal deletes every occurrence, and the
      result is still duplicate-free. */
  lemma RemoveFromDistinct<T>(xs: seq<T>, x: T)
    requires NoDuplicates(xs)
    ensures x !in RemoveFirst(xs, x)
    ensures NoDuplicates(RemoveFirst(xs, x))
  {
    var r := RemoveFirst(xs, x);
    RemoveFirstCounts(xs, x);
    assert multiset(xs)[x] <= 1 by {
      DistinctCount(xs, x);
    }
    assert x !in multiset(r);
    forall i, j | 0 <= i < j < |r| ensures r[i] != r[j] {
      if r[i] == r[j] {
        assert multiset(r)[r[i]] >= 2 by {
          TwoPositions(r, i, j);
        }
        DistinctCount(xs, r[i]);
        assert false;
      }
    }
  }

  /** A duplicate-free list holds each value at most once. */
  lemma {:induction false} DistinctCount<T>(xs: seq<T>, x: T)
    requires NoDuplicates(xs)
    ensures multiset(xs)[x] <= 1
  {
    if xs != [] {
      DistinctCount(xs[1..], x);
      assert xs == [xs[0]] + xs[1..];
      assert xs[0] == x ==> x !in xs[1..];
    }
  }

  /** Two equal elements at different positions count twice. */
  lemma {:induction false} TwoPositions<T>(xs: seq<T>, i: int, j: int)
    requires 0 <= i < j < |xs| && xs[i] == xs[j]
    ensures multiset(xs)[xs[i]] >= 2
  {
    assert xs == xs[..j] + [xs[j]] + xs[j + 1..];
    assert xs[i] in xs[..j];
  }
}

=== FILE: membership.dfy ===
/**
 The repository-backed user service: listing and creating users, the mapping
 between the stored user and the wire `User`, and the operations that link a
 user to an account and unlink it again.

 The association lives in two collections: `accounts` on the user (the owning
 side) and `users` on the account (the inverse side). The plain link and unlink
 touch only the owning side; the `WithMembership` variants touch both.
 */
module Membership {
  import opened Wrappers
  import opened Repository
  import opened Accounts

  /** The wire model of a user. */
  datatype User = User(id: Option<int>, email: string, name: string, surname: string, accountIds: seq<int>)

  /** The persisted columns of a users row together with the owning side of the
      membership association: the ids of the accounts the user belongs to. */
  datatype UserEntity = UserEntity(email: string, name: string, surname: string, accounts: set<int>)

  /** Both tables the service reads and writes. */
  datatype Db = Db(users: Repo<UserEntity>, accounts: Repo<AccountEntity>)

  ghost predicate Valid(db: Db) {
    Repository.Valid(db.users) && Repository.Valid(db.accounts)
  }

  /** The association invariant: a user lists an account exactly when that
      account lists the user, and both ends of every listed pair exist. */
  ghost predicate Symmetric(db: Db) {
    && (forall u, a :: u in db.users.rows && a in db.users.rows[u].accounts ==>
          a in db.accounts.rows && u in db.accounts.rows[a].users)
    && (forall u, a :: a in db.accounts.rows && u in db.accounts.rows[a].users ==>
          u in db.users.rows && a in db.users.rows[u].accounts)
  }

  /** Whether `u` lists `a` on the owning side. */
  ghost predicate UserLists(db: Db, u: int, a: int) {
    u in db.users.rows && a in db.users.rows[u].accounts
  }

  /** Whether `a` lists `u` on the inverse side. */
  ghost predicate AccountLists(db: Db, a: int, u: int) {
    a in db.accounts.rows && u in db.accounts.rows[a].users
  }

  /** Entity to wire model; the membership ids are never filled in. */
  function ToModel(e: Entity<UserEntity>): User {
    User(e.id, e.row.email, e.row.name, e.row.surname, [])
  }

  /** Wire model to entity, keeping the submitted id; the new entity has no accounts. */
  function ToEntity(m: User): Entity<UserEntity> {
    Entity(m.id, UserEntity(m.email, m.name, m.surname, {}))
  }

  /** A wire user survives the trip through the entity on id, email, name and
      surname; its account ids come back empty. */
  lemma ModelRoundTrip(m: User)
    ensures ToModel(ToEntity(m)).id == m.id
    ensures ToModel(ToEntity(m)).email == m.email
    ensures ToModel(ToEntity(m)).name == m.name
    ensures ToModel(ToEntity(m)).surname == m.surname
    ensures ToModel(ToEntity(m)).accountIds == []
    ensures ToModel(ToEntity(m)) == m <==> m.accountIds == []
  {
  }

  /** An entity survives the trip through the wire model except for its accounts. */
  lemma EntityRoundTrip(e: Entity<UserEntity>)
    ensures ToEntity(ToModel(e)) == Entity(e.id, e.row.(accounts := {}))
    ensures ToEntity(ToModel(e)) == e <==> e.row.accounts == {}
  {
  }

  /** `getUsers`: every stored user, in table order, as a wire model. */
  function GetUsers(db: Db): (r: seq<User>)
    requires Valid(db)
    ensures |r| == |db.users.order| == |db.users.rows|
    ensures forall i :: 0 <= i < |r| ==>
      && r[i].id == Some(db.users.order[i]) && db.users.order[i] in db.users.rows
      && r[i].email == db.users.rows[db.users.order[i]].email
      && r[i].name == db.users.rows[db.users.order[i]].name
      && r[i].surname == db.users.rows[db.users.order[i]].surname
      && r[i].accountIds == []
  {
    var rows := FindAll(db.users);
    seq(|rows|, i requires 0 <= i < |rows| => ToModel(rows[i]))
  }

  /** Every stored user is listed exactly once. */
  lemma GetUsersListsEachUserOnce(db: Db, id: int)
    requires Valid(db)
    ensures var r := GetUsers(db);
      id in db.users.rows <==> exists i :: 0 <= i < |r| && r[i].id == Some(id)
    ensures var r := GetUsers(db);
      forall i, j :: 0 <= i < |r| && 0 <= j < |r| && r[i].id == Some(id) && r[j].id == Some(id) ==> i == j
  {
    var r := GetUsers(db);
    if id in db.users.rows {
      var i :| 0 <= i < |db.users.order| && db.users.order[i] == id;
      assert r[i].id == Some(id);
    }
  }

  /** `createUser`: map to an entity, save it, map the saved entity back. A
      submitted id that is already stored overwrites that user, dropping its
      accounts; any other submission gets a fresh id. */
  function CreateUser(db: Db, m: User): (res: (Db, User))
    requires Valid(db)
    ensures Valid(res.0) && res.0.accounts == db.accounts
    ensures res.1.id.Some?
    ensures res.1.email == m.email && res.1.name == m.name && res.1.surname == m.surname
    ensures res.1.accountIds == []
    ensures FindById(res.0.users, res.1.id.value) == Some(Entity(res.1.id, UserEntity(m.email, m.name, m.surname, {})))
    ensures res.0.users.rows == db.users.rows[res.1.id.value := UserEntity(m.email, m.name, m.surname, {})]
    ensures forall k :: k in db.users.rows && Some(k) != res.1.id ==>
      k in res.0.users.rows && res.0.users.rows[k] == db.users.rows[k]
    ensures m.id.None? || m.id.value !in db.users.rows ==> res.1.id.value !in db.users.rows
    ensures m.id.Some? && m.id.value in db.users.rows ==> res.1.id == m.id
  {
    var (users', saved) := Save(db.users, ToEntity(m));
    (db.(users := users'), ToModel(saved))
  }

  /** Creating a user with no usable id appends it to the listing, with the
      submitted fields. */
  lemma CreateThenList(db: Db, m: User)
    requires Valid(db)
    requires m.id.None? || m.id.value !in db.users.rows
    ensures var (db', created) := CreateUser(db, m);
      GetUsers(db') == GetUsers(db) + [created]
  {
    var (db', created) := CreateUser(db, m);
    var before, after := GetUsers(db), GetUsers(db');
    assert |after| == |before| + 1;
    forall i | 0 <= i < |before| ensures after[i] == before[i] {
      assert db.users.order[i] in db.users.rows;
      assert db'.users.order[i] == db.users.order[i];
    }
  }

  /** A fresh user has no accounts, so creating one keeps the association symmetric. */
  lemma CreateKeepsSymmetric(db: Db, m: User)
    requires Valid(db) && Symmetric(db)
    requires m.id.None? || m.id.value !in db.users.rows
    ensures Symmetric(CreateUser(db, m).0)
  {
    var (db', created) := CreateUser(db, m);
    var k := created.id.value;
    forall u, a | a in db'.accounts.rows && u in db'.accounts.rows[a].users
      ensures u in db'.users.rows && a in db'.users.rows[u].accounts
    {
      assert u in db.users.rows;
    }
  }

  /** Creating a user under an id that is already stored replaces its row with
      one that has no accounts, while every account that listed the user still
      does: an overwriting create breaks the association. */
  lemma OverwritingCreateBreaksSymmetric(db: Db, m: User, a: int)
    requires Valid(db) && m.id.Some? && m.id.value in db.users.rows
    requires AccountLists(db, a, m.id.value)
    ensures var db' := CreateUser(db, m).0;
      AccountLists(db', a, m.id.value) && !UserLists(db', m.id.value, a) && !Symmetric(db')
  {
  }

  /** `linkUserToAccount`: when both ids are stored, add the account to the
      user's accounts and save the user; otherwise do nothing. */
  function Link(db: Db, u: int, a: int): (db': Db)
    requires Valid(db)
    ensures Valid(db') && db'.accounts == db.accounts
    ensures db'.users.rows.Keys == db.users.rows.Keys && db'.users.order == db.users.order
    ensures db'.users.nextId == db.users.nextId
    ensures forall v :: v in db.users.rows && v != u ==> db'.users.rows[v] == db.users.rows[v]
    ensures u in db.users.rows && a in db.accounts.rows ==>
      && db'.users.rows[u].accounts == db.users.rows[u].accounts + {a}
      && db'.users.rows[u] == db.users.rows[u].(accounts := db'.users.rows[u].accounts)
    ensures !(u in db.users.rows && a in db.accounts.rows) ==> db' == db
  {
    match (FindById(db.users, u), FindById(db.accounts, a))
    case (Some(user), Some(_)) =>
      db.(users := Save(db.users, user.(row := user.row.(accounts := user.row.accounts + {a}))).0)
    case _ => db
  }

  /** `unlinkUserFromAccount`: when both ids are stored, remove the account from
      the user's accounts and save the user; otherwise do nothing. */
  function Unlink(db: Db, u: int, a: int): (db': Db)
    requires Valid(db)
    ensures Valid(db') && db'.accounts == db.accounts
    ensures db'.users.rows.Keys == db.users.rows.Keys && db'.users.order == db.users.order
    ensures db'.users.nextId == db.users.nextId
    ensures forall v :: v in db.users.rows && v != u ==> db'.users.rows[v] == db.users.rows[v]
    ensures u in db.users.rows && a in db.accounts.rows ==>
      && db'.users.rows[u].accounts == db.users.rows[u].accounts - {a}
      && db'.users.rows[u] == db.users.rows[u].(accounts := db'.users.rows[u].accounts)
    ensures !(u in db.users.rows && a in db.accounts.rows) ==> db' == db
  {
    match (FindById(db.users, u), FindById(db.accounts, a))
    case (Some(user), Some(_)) =>
      db.(users := Save(db.users, user.(row := user.row.(accounts := user.row.accounts - {a}))).0)
    case _ => db
  }

  /** `linkUserToAccountWithMembership`: the owning-side link, then, when both
      ids are stored, add the user to the account's users and save the account. */
  function LinkWithMembership(db: Db, u: int, a: int): (db': Db)
    requires Valid(db)
    ensures Valid(db')
    ensures u in db.users.rows && a in db.accounts.rows ==> UserLists(db', u, a) && AccountLists(db', a, u)
    ensures !(u in db.users.rows && a in db.accounts.rows) ==> db' == db
    ensures db'.users.rows.Keys == db.users.rows.Keys && db'.accounts.rows.Keys == db.accounts.rows.Keys
    ensures db'.users.order == db.users.order && db'.accounts.order == db.accounts.order
    ensures db'.users.nextId == db.users.nextId && db'.accounts.nextId == db.accounts.nextId
    ensures forall v :: v in db.users.rows ==>
      db'.users.rows[v] == db.users.rows[v].(accounts := db'.users.rows[v].accounts)
    ensures forall b :: b in db.accounts.rows ==>
      db'.accounts.rows[b] == db.accounts.rows[b].(users := db'.accounts.rows[b].users)
    ensures forall v, b :: v != u || b != a ==>
      (UserLists(db', v, b) <==> UserLists(db, v, b)) && (AccountLists(db', b, v) <==> AccountLists(db, b, v))
  {
    var db1 := Link(db, u, a);
    match (FindById(db1.accounts, a), FindById(db1.users, u))
    case (Some(account), Some(_)) =>
      db1.(accounts := Save(db1.accounts, account.(row := account.row.(users := account.row.users + {u}))).0)
    case _ => db1
  }

  /** `unlinkUserFromAccountWithMembership`: the owning-side unlink, then, when
      both ids are stored, remove the user from the account's users and save it. */
  function UnlinkWithMembership(db: Db, u: int, a: int): (db': Db)
    requires Valid(db)
    ensures Valid(db')
    ensures !UserLists(db', u, a) || !(u in db.users.rows && a in db.accounts.rows)
    ensures !AccountLists(db', a, u) || !(u in db.users.rows && a in db.accounts.rows)
    ensures !(u in db.users.rows && a in db.accounts.rows) ==> db' == db
    ensures db'.users.rows.Keys == db.users.rows.Keys && db'.accounts.rows.Keys == db.accounts.rows.Keys
    ensures db'.users.order == db.users.order && db'.accounts.order == db.accounts.order
    ensures db'.users.nextId == db.users.nextId && db'.accounts.nextId == db.accounts.nextId
    ensures forall v :: v in db.users.rows ==>
      db'.users.rows[v] == db.users.rows[v].(accounts := db'.users.rows[v].accounts)
    ensures forall b :: b in db.accounts.rows ==>
      db'.accounts.rows[b] == db.accounts.rows[b].(users := db'.accounts.rows[b].users)
    ensures forall v, b :: v != u || b != a ==>
      (UserLists(db', v, b) <==> UserLists(db, v, b)) && (AccountLists(db', b, v) <==> AccountLists(db, b, v))
  {
    var db1 := Unlink(db, u, a);
    match (FindById(db1.accounts, a), FindById(db1.users, u))
    case (Some(account), Some(_)) =>
      db1.(accounts := Save(db1.accounts, account.(row := account.row.(users := account.row.users - {u}))).0)
    case _ => db1
  }

  /** The membership link keeps the association symmetric. */
  lemma LinkPreservesSymmetric(db: Db, u: int, a: int)
    requires Valid(db)
    ensures Symmetric(db) ==> Symmetric(LinkWithMembership(db, u, a))
  {
    if !Symmetric(db) {
      return;
    }
    var db' := LinkWithMembership(db, u, a);
    forall v, b | v in db'.users.rows && b in db'.users.rows[v].accounts
      ensures b in db'.accounts.rows && v in db'.accounts.rows[b].users
    {
      assert UserLists(db', v, b);
      if v != u || b != a {
        assert UserLists(db, v, b);
        assert AccountLists(db, b, v);
      }
      assert AccountLists(db', b, v);
    }
    forall v, b | b in db'.accounts.rows && v in db'.accounts.rows[b].users
      ensures v in db'.users.rows && b in db'.users.rows[v].accounts
    {
      assert AccountLists(db', b, v);
      if v != u || b != a {
        assert AccountLists(db, b, v);
        assert UserLists(db, v, b);
      }
      assert UserLists(db', v, b);
    }
  }

  /** The membership unlink keeps the association symmetric. */
  lemma UnlinkPreservesSymmetric(db: Db, u: int, a: int)
    requires Valid(db)
    ensures Symmetric(db) ==> Symmetric(UnlinkWithMembership(db, u, a))
  {
    if !Symmetric(db) {
      return;
    }
    var db' := UnlinkWithMembership(db, u, a);
    forall v, b | v in db'.users.rows && b in db'.users.rows[v].accounts
      ensures b in db'.accounts.rows && v in db'.accounts.rows[b].users
    {
      assert UserLists(db', v, b);
      if v != u || b != a {
        assert UserLists(db, v, b);
        assert AccountLists(db, b, v);
      }
      assert AccountLists(db', b, v);
    }
    forall v, b | b in db'.accounts.rows && v in db'.accounts.rows[b].users
      ensures v in db'.users.rows && b in db'.users.rows[v].accounts
    {
      assert AccountLists(db', b, v);
      if v != u || b != a {
        assert AccountLists(db, b, v);
        assert UserLists(db, v, b);
      }
      assert UserLists(db', v, b);
    }
  }

  /** Linking an already linked pair changes nothing, so linking twice is
      linking once; this holds for the owning-side link as well. */
  lemma LinkIdempotent(db: Db, u: int, a: int)
    requires Valid(db)
    ensures Link(Link(db, u, a), u, a) == Link(db, u, a)
    ensures LinkWithMembership(LinkWithMembership(db, u, a), u, a) == LinkWithMembership(db, u, a)
  {
    var db1 := Link(db, u, a);
    if u in db.users.rows && a in db.accounts.rows {
      assert db1.users.rows[u := db1.users.rows[u]] == db1.users.rows;
      var db2 := LinkWithMembership(db, u, a);
      assert Link(db2, u, a).users.rows == db2.users.rows[u := db2.users.rows[u]];
      assert db2.users.rows[u := db2.users.rows[u]] == db2.users.rows;
      assert db2.accounts.rows[a := db2.accounts.rows[a]] == db2.accounts.rows;
    }
  }

  /** Unlinking a pair that neither side lists changes nothing. */
  lemma UnlinkUnlinkedIsNoOp(db: Db, u: int, a: int)
    requires Valid(db)
    requires !UserLists(db, u, a) && !AccountLists(db, a, u)
    ensures Unlink(db, u, a) == db
    ensures UnlinkWithMembership(db, u, a) == db
  {
    if u in db.users.rows && a in db.accounts.rows {
      assert db.users.rows[u].accounts - {a} == db.users.rows[u].accounts;
      assert db.users.rows[u := db.users.rows[u]] == db.users.rows;
      assert db.accounts.rows[a].users - {u} == db.accounts.rows[a].users;
      assert db.accounts.rows[a := db.accounts.rows[a]] == db.accounts.rows;
    }
  }

  /** Unlinking right after linking a previously unlinked pair restores both
      tables exactly; the owning-side pair of operations restores the owning side. */
  lemma UnlinkUndoesLink(db: Db, u: int, a: int)
    requires Valid(db)
    requires !UserLists(db, u, a) && !AccountLists(db, a, u)
    ensures Unlink(Link(db, u, a), u, a) == db
    ensures UnlinkWithMembership(LinkWithMembership(db, u, a), u, a) == db
  {
    if u in db.users.rows && a in db.accounts.rows {
      var row := db.users.rows[u];
      assert row.accounts + {a} - {a} == row.accounts;
      assert db.users.rows[u := row] == db.users.rows;
      var arow := db.accounts.rows[a];
      assert arow.users + {u} - {u} == arow.users;
      assert db.accounts.rows[a := arow] == db.accounts.rows;
    }
  }
}

=== FILE: memory_accounts_api.dfy ===
/**
 The HTTP delegate for accounts in the in-memory variant. Creating an account
 links it to every user id it names, on the user side and on the account side.
 */
module MemoryAccountsApi {
  import opened Wrappers
  import opened Http
  import opened Repository
  import Accounts
  import opened MemoryUsers
  import opened RepoAccounts
  import opened MemoryMembership

  /** The submitted account: `None` stands for a null id, a null list or a null entry. */
  datatype Account = Account(id: Option<int>, name: string, industry: string, userIds: Option<seq<Option<int>>>)

  /** `GET /accounts`: 200 with every stored account. */
  function GetAccounts(st: OrgState): (resp: Response<seq<Entity<Accounts.AccountEntity>>>)
    requires MemoryMembership.Valid(st)
    ensures resp.status == Ok && resp.body.Some?
    ensures |resp.body.value| == |st.accounts.accounts.rows|
    ensures forall a :: a in st.accounts.accounts.rows ==>
      Entity(Some(a), st.accounts.accounts.rows[a]) in resp.body.value
  {
    Response(Ok, Some(RepoAccounts.GetAccounts(st.accounts)))
  }

  /** `POST /accounts`: save the account (it starts with no members); then, for
      every non-null user id on the created account's list, link the user to
      the account and the account to the user; answer 201 with the created
      account. */
  method CreateAccount(st: OrgState, account: Account) returns (st': OrgState, resp: Response<Account>)
    requires MemoryMembership.Valid(st)
    ensures MemoryMembership.Valid(st') && st'.accountServiceWired == st.accountServiceWired
    ensures resp.status == Created && resp.body.Some?
    ensures resp.body.value.id.Some? && resp.body.value == account.(id := resp.body.value.id)
    ensures st'.accounts.knownUsers == st.accounts.knownUsers
    ensures account.id.None? || account.id.value !in st.accounts.accounts.rows ==>
      resp.body.value.id.value !in st.accounts.accounts.rows
    ensures account.id.Some? && account.id.value in st.accounts.accounts.rows ==> resp.body.value.id == account.id
    ensures st'.accounts.accounts.rows.Keys == st.accounts.accounts.rows.Keys + {resp.body.value.id.value}
    ensures var accountId, ids := resp.body.value.id.value, account.userIds.GetOr([]);
      && accountId in st'.accounts.accounts.rows
      && st'.accounts.accounts.rows[accountId].name == account.name
      && st'.accounts.accounts.rows[accountId].kind == account.industry
      && (forall u :: u in st'.accounts.accounts.rows[accountId].users <==> Some(u) in ids && u in st.accounts.knownUsers)
      && (forall a :: a in st.accounts.accounts.rows && a != accountId ==>
            a in st'.accounts.accounts.rows && st'.accounts.accounts.rows[a] == st.accounts.accounts.rows[a])
    ensures st'.users.users.Keys == st.users.users.Keys && st'.users.userIdSeq == st.users.userIdSeq
    ensures var accountId, ids := resp.body.value.id.value, account.userIds.GetOr([]);
      forall v :: v in st.users.users ==>
        && st'.users.users[v] == st.users.users[v].(accountIds := st'.users.users[v].accountIds)
        && AccountIds(st'.users, v) ==
             if Some(v) in ids && Some(accountId) !in AccountIds(st.users, v)
             then AccountIds(st.users, v) + [Some(accountId)]
             else AccountIds(st.users, v)
  {
    var entity := Entity(account.id, Accounts.AccountEntity(account.name, account.industry, {}));
    var (accounts1, saved) := RepoAccounts.CreateAccount(st.accounts, entity);
    var created := account.(id := saved.id);
    st' := st.(accounts := accounts1);
    if created.id.Some? && created.userIds.Some? {
      var accountId, ids := created.id.value, created.userIds.value;
      var i := 0;
      while i < |ids|
        invariant 0 <= i <= |ids|
        invariant MemoryMembership.Valid(st') && st'.accountServiceWired == st.accountServiceWired
        invariant st'.accounts.knownUsers == st.accounts.knownUsers
        invariant st'.accounts.accounts.rows.Keys == accounts1.accounts.rows.Keys
        invariant st'.accounts.accounts.rows[accountId].name == account.name
        invariant st'.accounts.accounts.rows[accountId].kind == account.industry
        invariant forall u :: u in st'.accounts.accounts.rows[accountId].users <==>
          Some(u) in ids[..i] && u in st.accounts.knownUsers
        invariant forall a :: a in accounts1.accounts.rows && a != accountId ==>
          st'.accounts.accounts.rows[a] == accounts1.accounts.rows[a]
        invariant st'.users.users.Keys == st.users.users.Keys && st'.users.userIdSeq == st.users.userIdSeq
        invariant forall v :: v in st.users.users ==>
          && st'.users.users[v] == st.users.users[v].(accountIds := st'.users.users[v].accountIds)
          && AccountIds(st'.users, v) ==
               if Some(v) in ids[..i] && Some(accountId) !in AccountIds(st.users, v)
               then AccountIds(st.users, v) + [Some(accountId)]
               else AccountIds(st.users, v)
      {
        assert ids[..i + 1] == ids[..i] + [ids[i]];
        if ids[i].Some? {
          var userId := ids[i].value;
          st' := st'.(users := MemoryUsers.Link(st'.users, userId, accountId));
          st' := st'.(accounts := LinkAccountToUser(st'.accounts, accountId, userId));
        }
        i := i + 1;
      }
      assert ids[..i] == ids;
    } else {
      assert st'.users == st.users;
    }
    resp := Response(Created, Some(created));
  }
}

=== FILE: memory_membership.dfy ===
/**
 The membership operations of the in-memory user service: each applies the
 user-side change in the in-memory store and then, when the service was given
 an account service, the account-side change in the account repository.
 */
module MemoryMembership {
  import opened Wrappers
  import opened Lists
  import opened MemoryUsers
  import opened RepoAccounts

  /** The in-memory users, the account side, and whether the user service holds
      a (non-null) account service. */
  datatype OrgState = OrgState(users: UserStore, accounts: AccountStore, accountServiceWired: bool)

  ghost predicate Valid(st: OrgState) {
    MemoryUsers.Valid(st.users) && RepoAccounts.Valid(st.accounts)
  }

  /** Whether stored user `u` lists account `a`. */
  ghost predicate UserLists(st: OrgState, u: int, a: int)
    requires Valid(st)
  {
    u in st.users.users && Some(a) in AccountIds(st.users, u)
  }

  /** The association invariant between stored users and stored accounts: a
      user lists an account exactly when the account lists the user. */
  ghost predicate Symmetric(st: OrgState)
    requires Valid(st)
  {
    forall u, a :: u in st.users.users && a in st.accounts.accounts.rows ==>
      (Some(a) in AccountIds(st.users, u) <==> u in st.accounts.accounts.rows[a].users)
  }

  /** The conditions under which the two sides can agree: every in-memory user
      is also known to the user repository, and no user lists an account twice. */
  ghost predicate Aligned(st: OrgState)
    requires Valid(st)
  {
    && st.users.users.Keys <= st.accounts.knownUsers
    && forall u :: u in st.users.users ==> NoDuplicates(AccountIds(st.users, u))
  }

  /** `linkUserToAccountWithMembership`. */
  function LinkWithMembership(st: OrgState, userId: int, accountId: int): (st': OrgState)
    requires Valid(st)
    ensures Valid(st') && st'.accountServiceWired == st.accountServiceWired
    ensures userId in st.users.users ==> UserLists(st', userId, accountId)
    ensures st.accountServiceWired && accountId in st.accounts.accounts.rows && userId in st.accounts.knownUsers ==>
      AccountLists(st'.accounts, accountId, userId)
    ensures st'.accounts == if st.accountServiceWired then LinkAccountToUser(st.accounts, accountId, userId) else st.accounts
    ensures st'.users == MemoryUsers.Link(st.users, userId, accountId)
  {
    var users' := MemoryUsers.Link(st.users, userId, accountId);
    if st.accountServiceWired then
      st.(users := users', accounts := LinkAccountToUser(st.accounts, accountId, userId))
    else
      st.(users := users')
  }

  /** `unlinkUserFromAccountWithMembership`. */
  function UnlinkWithMembership(st: OrgState, userId: int, accountId: int): (st': OrgState)
    requires Valid(st)
    ensures Valid(st') && st'.accountServiceWired == st.accountServiceWired
    ensures st.accountServiceWired && accountId in st.accounts.accounts.rows && userId in st.accounts.knownUsers ==>
      !AccountLists(st'.accounts, accountId, userId)
    ensures st'.accounts == if st.accountServiceWired then UnlinkAccountFromUser(st.accounts, accountId, userId) else st.accounts
    ensures st'.users == MemoryUsers.Unlink(st.users, userId, accountId)
  {
    var users' := MemoryUsers.Unlink(st.users, userId, accountId);
    if st.accountServiceWired then
      st.(users := users', accounts := UnlinkAccountFromUser(st.accounts, accountId, userId))
    else
      st.(users := users')
  }

  /** With the account service wired in and the sides aligned, the membership
      link keeps the association symmetric and the sides aligned. */
  lemma LinkPreservesSymmetric(st: OrgState, userId: int, accountId: int)
    requires Valid(st) && st.accountServiceWired && Aligned(st) && Symmetric(st)
    ensures Aligned(LinkWithMembership(st, userId, accountId))
    ensures Symmetric(LinkWithMembership(st, userId, accountId))
  {
    var st' := LinkWithMembership(st, userId, accountId);
    forall u | u in st'.users.users ensures NoDuplicates(AccountIds(st'.users, u)) {
      if u == userId {
        LinkAddsNoDuplicate(st.users, userId, accountId, None);
      }
    }
    forall u, a | u in st'.users.users && a in st'.accounts.accounts.rows
      ensures Some(a) in AccountIds(st'.users, u) <==> u in st'.accounts.accounts.rows[a].users
    {
      if u == userId && a == accountId {
        assert userId in st.accounts.knownUsers;
      }
    }
  }

  /** With the account service wired in and the sides aligned, the membership
      unlink keeps the association symmetric and the sides aligned. */
  lemma UnlinkPreservesSymmetric(st: OrgState, userId: int, accountId: int)
    requires Valid(st) && st.accountServiceWired && Aligned(st) && Symmetric(st)
    ensures Aligned(UnlinkWithMembership(st, userId, accountId))
    ensures Symmetric(UnlinkWithMembership(st, userId, accountId))
  {
    var st' := UnlinkWithMembership(st, userId, accountId);
    if userId in st.users.users {
      UnlinkFromDistinctList(st.users, userId, accountId);
    }
    forall u, a | u in st'.users.users && a in st'.accounts.accounts.rows
      ensures Some(a) in AccountIds(st'.users, u) <==> u in st'.accounts.accounts.rows[a].users
    {
      if u == userId && a == accountId {
        assert userId in st.accounts.knownUsers;
      }
    }
  }

  /** A list that names an account twice survives an unlink with one copy left,
      while the account side drops the user: a user created with a repeated
      account id breaks the association on its first unlink. */
  lemma DuplicateSurvivesUnlink(st: OrgState, userId: int, accountId: int)
    requires Valid(st) && st.accountServiceWired && userId in st.users.users
    requires AccountIds(st.users, userId) == [Some(accountId), Some(accountId)]
    requires accountId in st.accounts.accounts.rows && userId in st.accounts.knownUsers
    ensures var st' := UnlinkWithMembership(st, userId, accountId);
      UserLists(st', userId, accountId) && !AccountLists(st'.accounts, accountId, userId)
  {
    var st' := UnlinkWithMembership(st, userId, accountId);
    assert AccountIds(st'.users, userId) == [Some(accountId)];
  }

  /** A user the user repository does not hold is linked on the user side only:
      the account service finds no such user and leaves the account as it was,
      so the association is no longer symmetric. */
  lemma UnknownUserLinksOneSide(st: OrgState, userId: int, accountId: int)
    requires Valid(st) && st.accountServiceWired && userId in st.users.users
    requires accountId in st.accounts.accounts.rows && userId !in st.accounts.knownUsers
    requires !AccountLists(st.accounts, accountId, userId)
    ensures var st' := LinkWithMembership(st, userId, accountId);
      UserLists(st', userId, accountId) && !AccountLists(st'.accounts, accountId, userId) && !Symmetric(st')
  {
  }

  /** `createUserWithMemberships`: create the user, then run the membership link
      for every non-null account id on its list, and return the created user. */
  method CreateUserWithMemberships(st: OrgState, u: User) returns (st': OrgState, created: User)
    requires Valid(st)
    ensures Valid(st') && st'.accountServiceWired == st.accountServiceWired
    ensures (st'.users, created) == MemoryUsers.CreateUser(st.users, u)
    ensures st'.accounts.knownUsers == st.accounts.knownUsers
    ensures st'.accounts.accounts.rows.Keys == st.accounts.accounts.rows.Keys
    ensures st'.accounts.accounts.order == st.accounts.accounts.order
    ensures st'.accounts.accounts.nextId == st.accounts.accounts.nextId
    ensures forall a :: a in st.accounts.accounts.rows ==>
      st'.accounts.accounts.rows[a] == st.accounts.accounts.rows[a].(users := st'.accounts.accounts.rows[a].users)
    ensures forall a :: a in st.accounts.accounts.rows ==>
      st'.accounts.accounts.rows[a].users ==
        st.accounts.accounts.rows[a].users
        + (if st.accountServiceWired && Some(a) in created.accountIds.value && created.id.value in st.accounts.knownUsers
           then {created.id.value} else {})
  {
    var (users1, c) := MemoryUsers.CreateUser(st.users, u);
    created := c;
    st' := st.(users := users1);
    if created.id.Some? && created.accountIds.Some? {
      var userId, ids := created.id.value, created.accountIds.value;
      var i := 0;
      while i < |ids|
        invariant 0 <= i <= |ids|
        invariant Valid(st') && st'.accountServiceWired == st.accountServiceWired
        invariant st'.users == users1
        invariant st'.accounts.knownUsers == st.accounts.knownUsers
        invariant st'.accounts.accounts.rows.Keys == st.accounts.accounts.rows.Keys
        invariant st'.accounts.accounts.order == st.accounts.accounts.order
        invariant st'.accounts.accounts.nextId == st.accounts.accounts.nextId
        invariant forall a :: a in st.accounts.accounts.rows ==>
          st'.accounts.accounts.rows[a] == st.accounts.accounts.rows[a].(users := st'.accounts.accounts.rows[a].users)
        invariant forall a :: a in st.accounts.accounts.rows ==>
          st'.accounts.accounts.rows[a].users ==
            st.accounts.accounts.rows[a].users
            + (if st.accountServiceWired && Some(a) in ids[..i] && userId in st.accounts.knownUsers
               then {userId} else {})
      {
        assert ids[..i + 1] == ids[..i] + [ids[i]];
        if ids[i].Some? {
          assert AccountIds(st'.users, userId) == ids;
          st' := LinkWithMembership(st', userId, ids[i].value);
        }
        i := i + 1;
      }
      assert ids[..i] == ids;
    }
  }
}

=== FILE: memory_users.dfy ===
/**
 The in-memory user store: a map from id to user plus the `int` counter that
 issues ids. Each user carries a list of account ids; linking appends an id
 the list does not hold yet, unlinking removes the first occurrence.
 */
module MemoryUsers {
  import opened Wrappers
  import opened Lists

  const IntMin: int := -0x8000_0000
  const IntMax: int := 0x7fff_ffff

  /** `x++` on a Java `int`: past the largest value it wraps to the smallest. */
  function IncrementInt(x: int): (y: int)
    requires IntMin <= x <= IntMax
    ensures IntMin <= y <= IntMax
    ensures x < IntMax ==> y == x + 1
    ensures x == IntMax ==> y == IntMin
  {
    if x == IntMax then IntMin else x + 1
  }

  /** The wire `User`. `None` stands for a null reference: the id before one is
      assigned, a missing list, or a null entry in the list. */
  datatype User = User(
    id: Option<int>,
    email: string,
    name: string,
    surname: string,
    accountIds: Option<seq<Option<int>>>)

  datatype UserStore = UserStore(users: map<int, User>, userIdSeq: int)

  /** The store as the service starts: no users, counter at 1. */
  function Init(): (s: UserStore)
    ensures Valid(s) && IdsIssuedBelowCounter(s) && s.users == map[]
  {
    UserStore(map[], 1)
  }

  /** Every stored user sits under its own id and has a list, and the counter
      is a Java `int`. */
  ghost predicate Valid(s: UserStore) {
    && IntMin <= s.userIdSeq <= IntMax
    && (forall k :: k in s.users ==> s.users[k].id == Some(k) && s.users[k].accountIds.Some?)
  }

  /** The counter has not wrapped, and every id issued so far lies between 1
      and the counter. */
  ghost predicate IdsIssuedBelowCounter(s: UserStore) {
    && 1 <= s.userIdSeq
    && forall k :: k in s.users ==> 1 <= k < s.userIdSeq
  }

  /** The account ids of a stored user. */
  function AccountIds(s: UserStore, id: int): seq<Option<int>>
    requires Valid(s) && id in s.users
  {
    s.users[id].accountIds.value
  }

  /** `createUser`: take the next id, replace a null list by an empty one, and
      store the user under its id. */
  function CreateUser(s: UserStore, u: User): (res: (UserStore, User))
    requires Valid(s)
    ensures Valid(res.0)
    ensures res.1.id == Some(s.userIdSeq)
    ensures res.1.email == u.email && res.1.name == u.name && res.1.surname == u.surname
    ensures u.accountIds.None? ==> res.1.accountIds == Some([])
    ensures u.accountIds.Some? ==> res.1.accountIds == u.accountIds
    ensures res.0.users.Keys == s.users.Keys + {s.userIdSeq}
    ensures res.0.users[s.userIdSeq] == res.1
    ensures forall k :: k in s.users && k != s.userIdSeq ==> res.0.users[k] == s.users[k]
    ensures res.0.userIdSeq == IncrementInt(s.userIdSeq)
  {
    var id := s.userIdSeq;
    var created := u.(id := Some(id), accountIds := if u.accountIds.None? then Some([]) else u.accountIds);
    (UserStore(s.users[id := created], IncrementInt(id)), created)
  }

  /** While the counter has not reached the largest `int`, every created user
      gets an id no stored user has, larger than all of them. */
  lemma CreateUserIssuesFreshId(s: UserStore, u: User)
    requires Valid(s) && IdsIssuedBelowCounter(s)
    requires s.userIdSeq < IntMax
    ensures var (s', created) := CreateUser(s, u);
      && created.id.value !in s.users
      && (forall k :: k in s.users ==> k < created.id.value)
      && IdsIssuedBelowCounter(s')
  {
  }

  /** Two creations in a row issue consecutive, increasing ids. */
  lemma SuccessiveIdsIncrease(s: UserStore, u: User, v: User)
    requires Valid(s) && s.userIdSeq < IntMax
    ensures var (s1, first) := CreateUser(s, u);
      var (s2, second) := CreateUser(s1, v);
      second.id.value == first.id.value + 1
  {
  }

  /** The counter is a Java `int`: the user created when it holds the largest
      value leaves it at the smallest, so the next id is negative and smaller
      than every id before it. */
  lemma CounterWrapsAtIntMax(s: UserStore, u: User, v: User)
    requires Valid(s) && s.userIdSeq == IntMax
    ensures var (s1, first) := CreateUser(s, u);
      var (s2, second) := CreateUser(s1, v);
      second.id.value == IntMin && second.id.value < first.id.value
  {
  }

  /** `getUsers`: a fresh list of the stored users, each once, in the map's
      iteration order (left unspecified here). */
  method GetUsers(s: UserStore) returns (r: seq<User>)
    ensures |r| == |s.users|
    ensures forall i :: 0 <= i < |r| ==> r[i] in s.users.Values
    ensures forall k :: k in s.users ==> s.users[k] in r
  {
    r := [];
    var remaining := s.users.Keys;
    ghost var visited: set<int> := {};
    while remaining != {}
      invariant remaining !! visited && remaining + visited == s.users.Keys
      invariant |r| == |visited|
      invariant forall i :: 0 <= i < |r| ==> r[i] in s.users.Values
      invariant forall k :: k in visited ==> s.users[k] in r
      decreases |remaining|
    {
      assert exists k :: k in remaining by {
        if forall k :: k !in remaining {
          assert false;
        }
      }
      var k :| k in remaining;
      r := r + [s.users[k]];
      remaining := remaining - {k};
      visited := visited + {k};
    }
    assert visited == s.users.Keys;
  }

  /** `linkUserToAccount`: append the account id to a stored user's list when
      the list does not hold it; an unknown user changes nothing. */
  function Link(s: UserStore, userId: int, accountId: int): (s': UserStore)
    requires Valid(s)
    ensures Valid(s') && s'.userIdSeq == s.userIdSeq && s'.users.Keys == s.users.Keys
    ensures forall k :: k in s.users && k != userId ==> s'.users[k] == s.users[k]
    ensures userId in s.users ==>
      && Some(accountId) in AccountIds(s', userId)
      && AccountIds(s', userId) == (if Some(accountId) in AccountIds(s, userId) then AccountIds(s, userId)
                                    else AccountIds(s, userId) + [Some(accountId)])
      && s'.users[userId] == s.users[userId].(accountIds := Some(AccountIds(s', userId)))
    ensures userId !in s.users ==> s' == s
  {
    if userId in s.users && Some(accountId) !in AccountIds(s, userId) then
      var user := s.users[userId];
      s.(users := s.users[userId := user.(accountIds := Some(AccountIds(s, userId) + [Some(accountId)]))])
    else
      s
  }

  /** `unlinkUserFromAccount`: remove the first occurrence of the account id from
      a stored user's list; an unknown user changes nothing. */
  function Unlink(s: UserStore, userId: int, accountId: int): (s': UserStore)
    requires Valid(s)
    ensures Valid(s') && s'.userIdSeq == s.userIdSeq && s'.users.Keys == s.users.Keys
    ensures forall k :: k in s.users && k != userId ==> s'.users[k] == s.users[k]
    ensures userId in s.users ==>
      && multiset(AccountIds(s', userId)) == multiset(AccountIds(s, userId)) - multiset{Some(accountId)}
      && s'.users[userId] == s.users[userId].(accountIds := Some(AccountIds(s', userId)))
    ensures userId !in s.users ==> s' == s
  {
    if userId in s.users then
      var user := s.users[userId];
      RemoveFirstCounts(AccountIds(s, userId), Some(accountId));
      s.(users := s.users[userId := user.(accountIds := Some(RemoveFirst(AccountIds(s, userId), Some(accountId))))])
    else
      s
  }

  /** Linking never creates a duplicate: the linked id is held once unless it
      was already held more often, and every other id keeps its count. */
  lemma LinkAddsNoDuplicate(s: UserStore, userId: int, accountId: int, x: Option<int>)
    requires Valid(s) && userId in s.users
    ensures var before, after := multiset(AccountIds(s, userId)), multiset(AccountIds(Link(s, userId, accountId), userId));
      && (x != Some(accountId) ==> after[x] == before[x])
      && after[Some(accountId)] == if before[Some(accountId)] == 0 then 1 else before[Some(accountId)]
    ensures NoDuplicates(AccountIds(s, userId)) ==> NoDuplicates(AccountIds(Link(s, userId, accountId), userId))
  {
  }

  /** Linking twice is linking once. */
  lemma LinkIdempotent(s: UserStore, userId: int, accountId: int)
    requires Valid(s)
    ensures Link(Link(s, userId, accountId), userId, accountId) == Link(s, userId, accountId)
  {
  }

  /** Unlinking an id a user's list does not hold, or unlinking for an unknown
      user, changes nothing. */
  lemma UnlinkAbsentIsNoOp(s: UserStore, userId: int, accountId: int)
    requires Valid(s)
    requires userId in s.users ==> Some(accountId) !in AccountIds(s, userId)
    ensures Unlink(s, userId, accountId) == s
  {
    if userId in s.users {
      RemoveAbsent(AccountIds(s, userId), Some(accountId));
      assert s.users[userId := s.users[userId]] == s.users;
    }
  }

  /** Unlinking removes the first occurrence and keeps the rest of the list in
      order; in a duplicate-free list it leaves no occurrence behind. */
  lemma UnlinkRemovesFirstOccurrence(s: UserStore, userId: int, accountId: int)
    requires Valid(s) && userId in s.users && Some(accountId) in AccountIds(s, userId)
    ensures var xs, i := AccountIds(s, userId), FirstIndex(AccountIds(s, userId), Some(accountId));
      AccountIds(Unlink(s, userId, accountId), userId) == xs[..i] + xs[i + 1..]
    ensures NoDuplicates(AccountIds(s, userId)) ==>
      Some(accountId) !in AccountIds(Unlink(s, userId, accountId), userId)
  {
    RemoveFirstSplices(AccountIds(s, userId), Some(accountId));
    if NoDuplicates(AccountIds(s, userId)) {
      RemoveFromDistinct(AccountIds(s, userId), Some(accountId));
    }
  }

  /** Linking an id the list does not hold and then unlinking it restores the store. */
  lemma UnlinkUndoesLink(s: UserStore, userId: int, accountId: int)
    requires Valid(s)
    requires userId in s.users ==> Some(accountId) !in AccountIds(s, userId)
    ensures Unlink(Link(s, userId, accountId), userId, accountId) == s
  {
    if userId in s.users {
      RemoveAppended(AccountIds(s, userId), Some(accountId));
      assert s.users[userId := s.users[userId]] == s.users;
    }
  }

  /** In a duplicate-free list, unlinking removes the id entirely, keeps every
      other id, and leaves the list duplicate-free. */
  lemma UnlinkFromDistinctList(s: UserStore, userId: int, accountId: int)
    requires Valid(s) && userId in s.users && NoDuplicates(AccountIds(s, userId))
    ensures var after := AccountIds(Unlink(s, userId, accountId), userId);
      && Some(accountId) !in after
      && NoDuplicates(after)
      && forall x :: x != Some(accountId) ==> (x in after <==> x in AccountIds(s, userId))
  {
    var xs := AccountIds(s, userId);
    var after := AccountIds(Unlink(s, userId, accountId), userId);
    RemoveFromDistinct(xs, Some(accountId));
    forall x | x != Some(accountId) ensures x in after <==> x in xs {
      assert multiset(after)[x] == multiset(xs)[x];
    }
  }
}

=== FILE: memory_users_api.dfy ===
/**
 The HTTP delegate for users in the in-memory variant. Creating a user links
 it to every account id it names, and link and unlink update both sides by
 calling the user store and the account service directly.
 */
module MemoryUsersApi {
  import opened Wrappers
  import opened Http
  import opened MemoryUsers
  import opened RepoAccounts
  import opened MemoryMembership

  /** `GET /users`: 200 with every stored user. */
  method GetUsers(st: OrgState) returns (resp: Response<seq<User>>)
    ensures resp.status == Ok && resp.body.Some?
    ensures |resp.body.value| == |st.users.users|
    ensures forall k :: k in st.users.users ==> st.users.users[k] in resp.body.value
    ensures forall i :: 0 <= i < |resp.body.value| ==> resp.body.value[i] in st.users.users.Values
  {
    var all := MemoryUsers.GetUsers(st.users);
    resp := Response(Ok, Some(all));
  }

  /** `POST /users`: create the user; then, for every non-null account id on
      the created user's list, link the account to the user and the user to
      the account; answer 201 with the created user. */
  method CreateUser(st: OrgState, u: User) returns (st': OrgState, resp: Response<User>)
    requires MemoryMembership.Valid(st)
    ensures MemoryMembership.Valid(st') && st'.accountServiceWired == st.accountServiceWired
    ensures resp.status == Created && resp.body.Some?
    ensures (st'.users, resp.body.value) == MemoryUsers.CreateUser(st.users, u)
    ensures st'.accounts.knownUsers == st.accounts.knownUsers
    ensures st'.accounts.accounts.rows.Keys == st.accounts.accounts.rows.Keys
    ensures st'.accounts.accounts.order == st.accounts.accounts.order
    ensures st'.accounts.accounts.nextId == st.accounts.accounts.nextId
    ensures forall a :: a in st.accounts.accounts.rows ==>
      st'.accounts.accounts.rows[a] == st.accounts.accounts.rows[a].(users := st'.accounts.accounts.rows[a].users)
    ensures var created := resp.body.value;
      forall a :: a in st.accounts.accounts.rows ==>
        st'.accounts.accounts.rows[a].users ==
          st.accounts.accounts.rows[a].users
          + (if Some(a) in created.accountIds.value && created.id.value in st.accounts.knownUsers
             then {created.id.value} else {})
  {
    var (users1, created) := MemoryUsers.CreateUser(st.users, u);
    st' := st.(users := users1);
    if created.id.Some? && created.accountIds.Some? {
      var userId, ids := created.id.value, created.accountIds.value;
      var i := 0;
      while i < |ids|
        invariant 0 <= i <= |ids|
        invariant MemoryMembership.Valid(st') && st'.accountServiceWired == st.accountServiceWired
        invariant st'.users == users1
        invariant st'.accounts.knownUsers == st.accounts.knownUsers
        invariant st'.accounts.accounts.rows.Keys == st.accounts.accounts.rows.Keys
        invariant st'.accounts.accounts.order == st.accounts.accounts.order
        invariant st'.accounts.accounts.nextId == st.accounts.accounts.nextId
        invariant forall a :: a in st.accounts.accounts.rows ==>
          st'.accounts.accounts.rows[a] == st.accounts.accounts.rows[a].(users := st'.accounts.accounts.rows[a].users)
        invariant forall a :: a in st.accounts.accounts.rows ==>
          st'.accounts.accounts.rows[a].users ==
            st.accounts.accounts.rows[a].users
            + (if Some(a) in ids[..i] && userId in st.accounts.knownUsers then {userId} else {})
      {
        assert ids[..i + 1] == ids[..i] + [ids[i]];
        if ids[i].Some? {
          var accountId := ids[i].value;
          st' := st'.(accounts := LinkAccountToUser(st'.accounts, accountId, userId));
          assert AccountIds(st'.users, userId) == ids;
          st' := st'.(users := MemoryUsers.Link(st'.users, userId, accountId));
        }
        i := i + 1;
      }
      assert ids[..i] == ids;
    }
    resp := Response(Created, Some(created));
  }

  /** `POST /users/{userId}/accounts/{accountId}`: the user-side link, then the
      account-side link, then 200. */
  function LinkUserToAccount(st: OrgState, userId: int, accountId: int): (res: (OrgState, Response<()>))
    requires MemoryMembership.Valid(st)
    ensures MemoryMembership.Valid(res.0) && res.1 == Response(Ok, None)
    ensures userId in st.users.users ==> UserLists(res.0, userId, accountId)
    ensures accountId in st.accounts.accounts.rows && userId in st.accounts.knownUsers ==>
      AccountLists(res.0.accounts, accountId, userId)
    ensures res.0 == st.(users := MemoryUsers.Link(st.users, userId, accountId),
                         accounts := LinkAccountToUser(st.accounts, accountId, userId))
  {
    var users' := MemoryUsers.Link(st.users, userId, accountId);
    (st.(users := users', accounts := LinkAccountToUser(st.accounts, accountId, userId)), Response(Ok, None))
  }

  /** `DELETE /users/{userId}/accounts/{accountId}`: the user-side unlink, then
      the account-side unlink, then 200. */
  function UnlinkUserFromAccount(st: OrgState, userId: int, accountId: int): (res: (OrgState, Response<()>))
    requires MemoryMembership.Valid(st)
    ensures MemoryMembership.Valid(res.0) && res.1 == Response(Ok, None)
    ensures accountId in st.accounts.accounts.rows && userId in st.accounts.knownUsers ==>
      !AccountLists(res.0.accounts, accountId, userId)
    ensures res.0.users.users.Keys == st.users.users.Keys
    ensures userId in st.users.users ==>
      multiset(AccountIds(res.0.users, userId)) == multiset(AccountIds(st.users, userId)) - multiset{Some(accountId)}
    ensures res.0 == st.(users := MemoryUsers.Unlink(st.users, userId, accountId),
                         accounts := UnlinkAccountFromUser(st.accounts, accountId, userId))
  {
    var users' := MemoryUsers.Unlink(st.users, userId, accountId);
    (st.(users := users', accounts := UnlinkAccountFromUser(st.accounts, accountId, userId)), Response(Ok, None))
  }

  /** The endpoints do what the user service's membership operations do when
      the account service is wired in, so they keep the association symmetric. */
  lemma EndpointsMatchMembership(st: OrgState, userId: int, accountId: int)
    requires MemoryMembership.Valid(st)
    ensures var wired := st.(accountServiceWired := true);
      && LinkUserToAccount(st, userId, accountId).0
         == LinkWithMembership(wired, userId, accountId).(accountServiceWired := st.accountServiceWired)
      && UnlinkUserFromAccount(st, userId, accountId).0
         == UnlinkWithMembership(wired, userId, accountId).(accountServiceWired := st.accountServiceWired)
    ensures Aligned(st) && Symmetric(st) ==>
      && Symmetric(LinkUserToAccount(st, userId, accountId).0)
      && Symmetric(UnlinkUserFromAccount(st, userId, accountId).0)
  {
    if Aligned(st) && Symmetric(st) {
      var wired := st.(accountServiceWired := true);
      LinkPreservesSymmetric(wired, userId, accountId);
      UnlinkPreservesSymmetric(wired, userId, accountId);
    }
  }
}

=== FILE: repo_accounts.dfy ===
/**
 The account service of the in-memory variant: accounts live in the account
 repository, and linking or unlinking edits only the account's users
 collection. A user counts as present when the user repository holds its id;
 that repository is only ever read here.
 */
module RepoAccounts {
  import opened Wrappers
  import opened Repository
  import opened Accounts

  /** The account table, and the ids the user repository holds. */
  datatype AccountStore = AccountStore(accounts: Repo<AccountEntity>, knownUsers: set<int>)

  ghost predicate Valid(s: AccountStore) {
    Repository.Valid(s.accounts)
  }

  /** Whether the stored account `a` lists user `u`. */
  ghost predicate AccountLists(s: AccountStore, a: int, u: int) {
    a in s.accounts.rows && u in s.accounts.rows[a].users
  }

  /** `getAccounts`: every stored account, each once. */
  function GetAccounts(s: AccountStore): (r: seq<Entity<AccountEntity>>)
    requires Valid(s)
    ensures |r| == |s.accounts.rows|
    ensures forall i :: 0 <= i < |r| ==>
      r[i].id.Some? && r[i].id.value in s.accounts.rows && r[i].row == s.accounts.rows[r[i].id.value]
    ensures forall a :: a in s.accounts.rows ==> Entity(Some(a), s.accounts.rows[a]) in r
    ensures forall i, j :: 0 <= i < j < |r| ==> r[i].id != r[j].id
  {
    var r := FindAll(s.accounts);
    forall a | a in s.accounts.rows ensures Entity(Some(a), s.accounts.rows[a]) in r {
      var i :| 0 <= i < |s.accounts.order| && s.accounts.order[i] == a;
      assert r[i] == Entity(Some(a), s.accounts.rows[a]);
    }
    r
  }

  /** `createAccount`: save the account and hand back what the save returned,
      which carries the assigned id. */
  function CreateAccount(s: AccountStore, e: Entity<AccountEntity>): (res: (AccountStore, Entity<AccountEntity>))
    requires Valid(s)
    ensures Valid(res.0) && res.0.knownUsers == s.knownUsers
    ensures res.1.id.Some? && res.1.row == e.row
    ensures FindById(res.0.accounts, res.1.id.value) == Some(res.1)
    ensures res.0.accounts.rows == s.accounts.rows[res.1.id.value := e.row]
    ensures forall a :: a in s.accounts.rows && Some(a) != res.1.id ==>
      a in res.0.accounts.rows && res.0.accounts.rows[a] == s.accounts.rows[a]
    ensures e.id.None? || e.id.value !in s.accounts.rows ==> res.1.id.value !in s.accounts.rows
    ensures e.id.Some? && e.id.value in s.accounts.rows ==> res.1.id == e.id
  {
    var (accounts', saved) := Save(s.accounts, e);
    (s.(accounts := accounts'), saved)
  }

  /** `linkAccountToUser`: when the account and the user are both present, add
      the user to the account's users and save the account; otherwise nothing. */
  function LinkAccountToUser(s: AccountStore, accountId: int, userId: int): (s': AccountStore)
    requires Valid(s)
    ensures Valid(s') && s'.knownUsers == s.knownUsers
    ensures s'.accounts.rows.Keys == s.accounts.rows.Keys && s'.accounts.order == s.accounts.order
    ensures s'.accounts.nextId == s.accounts.nextId
    ensures forall a :: a in s.accounts.rows ==>
      s'.accounts.rows[a] == s.accounts.rows[a].(users := s'.accounts.rows[a].users)
    ensures forall a :: a in s.accounts.rows && a != accountId ==> s'.accounts.rows[a] == s.accounts.rows[a]
    ensures accountId in s.accounts.rows && userId in s.knownUsers ==>
      && s'.accounts.rows[accountId].users == s.accounts.rows[accountId].users + {userId}
      && s'.accounts.rows[accountId].name == s.accounts.rows[accountId].name
      && s'.accounts.rows[accountId].kind == s.accounts.rows[accountId].kind
    ensures !(accountId in s.accounts.rows && userId in s.knownUsers) ==> s' == s
  {
    match FindById(s.accounts, accountId)
    case Some(account) =>
      if userId in s.knownUsers then
        s.(accounts := Save(s.accounts, account.(row := account.row.(users := account.row.users + {userId}))).0)
      else s
    case None => s
  }

  /** `unlinkAccountFromUser`: when the account and the user are both present,
      remove the user from the account's users and save the account. */
  function UnlinkAccountFromUser(s: AccountStore, accountId: int, userId: int): (s': AccountStore)
    requires Valid(s)
    ensures Valid(s') && s'.knownUsers == s.knownUsers
    ensures s'.accounts.rows.Keys == s.accounts.rows.Keys && s'.accounts.order == s.accounts.order
    ensures s'.accounts.nextId == s.accounts.nextId
    ensures forall a :: a in s.accounts.rows ==>
      s'.accounts.rows[a] == s.accounts.rows[a].(users := s'.accounts.rows[a].users)
    ensures forall a :: a in s.accounts.rows && a != accountId ==> s'.accounts.rows[a] == s.accounts.rows[a]
    ensures accountId in s.accounts.rows && userId in s.knownUsers ==>
      && s'.accounts.rows[accountId].users == s.accounts.rows[accountId].users - {userId}
      && s'.accounts.rows[accountId].name == s.accounts.rows[accountId].name
      && s'.accounts.rows[accountId].kind == s.accounts.rows[accountId].kind
    ensures !(accountId in s.accounts.rows && userId in s.knownUsers) ==> s' == s
  {
    match FindById(s.accounts, accountId)
    case Some(account) =>
      if userId in s.knownUsers then
        s.(accounts := Save(s.accounts, account.(row := account.row.(users := account.row.users - {userId}))).0)
      else s
    case None => s
  }

  /** Linking twice is linking once, and unlinking right after linking a user
      the account did not list restores the store. */
  lemma LinkThenUnlink(s: AccountStore, accountId: int, userId: int)
    requires Valid(s)
    ensures LinkAccountToUser(LinkAccountToUser(s, accountId, userId), accountId, userId)
         == LinkAccountToUser(s, accountId, userId)
    ensures !AccountLists(s, accountId, userId) ==>
      UnlinkAccountFromUser(LinkAccountToUser(s, accountId, userId), accountId, userId) == s
  {
    if accountId in s.accounts.rows && userId in s.knownUsers {
      var s1 := LinkAccountToUser(s, accountId, userId);
      assert s1.accounts.rows[accountId := s1.accounts.rows[accountId]] == s1.accounts.rows;
      var row := s.accounts.rows[accountId];
      if userId !in row.users {
        assert row.users + {userId} - {userId} == row.users;
        assert s.accounts.rows[accountId := row] == s.accounts.rows;
      }
    }
  }
}

=== FILE: repository.dfy ===
/**
 The persistence gateway both services talk to: a table of rows keyed by a
 database-generated identity, with find-all, find-by-id and save.

 A row carries every persisted column except the identity, which is the key.
 `order` is the sequence in which find-all returns the rows, and `nextId` is
 the next value of the identity column.
 */
module Repository {
  import opened Wrappers

  /** An entity object as the services see it: a possibly-null id plus its columns. */
  datatype Entity<R> = Entity(id: Option<int>, row: R)

  datatype Repo<R> = Repo(rows: map<int, R>, order: seq<int>, nextId: int)

  /** The table is well formed: find-all lists every key exactly once, and the
      identity counter is above every key already issued. */
  ghost predicate Valid<R>(r: Repo<R>) {
    && (forall i, j :: 0 <= i < j < |r.order| ==> r.order[i] != r.order[j])
    && (forall k :: k in r.rows <==> k in r.order)
    && (forall k :: k in r.rows ==> k < r.nextId)
  }

  /** `findById`: the stored entity under `id`, if any. */
  function FindById<R>(r: Repo<R>, id: int): Option<Entity<R>> {
    if id in r.rows then Some(Entity(Some(id), r.rows[id])) else None
  }

  /** `findAll`: every stored entity, in table order. */
  function FindAll<R>(r: Repo<R>): (es: seq<Entity<R>>)
    requires Valid(r)
    ensures |es| == |r.order| == |r.rows|
    ensures forall i :: 0 <= i < |es| ==>
      es[i].id == Some(r.order[i]) && r.order[i] in r.rows && es[i].row == r.rows[r.order[i]]
  {
    DistinctKeysCount(r);
    assert forall i :: 0 <= i < |r.order| ==> r.order[i] in r.order;
    seq(|r.order|, i requires 0 <= i < |r.order| && r.order[i] in r.rows => Entity(Some(r.order[i]), r.rows[r.order[i]]))
  }

  /** `save`: an entity whose id is null or unknown is inserted under a fresh
      identity; an entity whose id is stored overwrites that row. The saved
      entity is returned with its id set. */
  function Save<R>(r: Repo<R>, e: Entity<R>): (res: (Repo<R>, Entity<R>))
    requires Valid(r)
    ensures Valid(res.0)
    ensures res.1.id.Some? && res.1.row == e.row
    ensures res.0.rows == r.rows[res.1.id.value := e.row]
    ensures e.id.Some? && e.id.value in r.rows ==>
      res.1.id == e.id && res.0.order == r.order && res.0.nextId == r.nextId
    ensures !(e.id.Some? && e.id.value in r.rows) ==>
      res.1.id.value !in r.rows && res.0.order == r.order + [res.1.id.value]
  {
    if e.id.Some? && e.id.value in r.rows then
      (r.(rows := r.rows[e.id.value := e.row]), e)
    else
      var k := r.nextId;
      assert k !in r.order;
      (Repo(r.rows[k := e.row], r.order + [k], k + 1), Entity(Some(k), e.row))
  }

  /** What a later `findById` sees after a save: the saved entity under its
      id, and every other id as before. */
  lemma SaveThenFind<R>(r: Repo<R>, e: Entity<R>, id: int)
    requires Valid(r)
    ensures var (r', saved) := Save(r, e);
      FindById(r', id) == if Some(id) == saved.id then Some(saved) else FindById(r, id)
  {
  }

  /** A well-formed table has as many rows as find-all entries. */
  lemma DistinctKeysCount<R>(r: Repo<R>)
    requires Valid(r)
    ensures |r.rows| == |r.order|
  {
    var ks := set i | 0 <= i < |r.order| :: r.order[i];
    forall k | k in r.rows ensures k in ks {
      var i :| 0 <= i < |r.order| && r.order[i] == k;
    }
    forall k | k in ks ensures k in r.rows {
      var i :| 0 <= i < |r.order| && r.order[i] == k;
      assert r.order[i] in r.order;
    }
    assert ks == r.rows.Keys;
    DistinctCard(r.order);
  }

  /** A duplicate-free sequence has as many distinct elements as positions. */
  lemma {:induction false} DistinctCard(xs: seq<int>)
    requires forall i, j :: 0 <= i < j < |xs| ==> xs[i] != xs[j]
    ensures |set i | 0 <= i < |xs| :: xs[i]| == |xs|
  {
    if xs != [] {
      var n := |xs| - 1;
      DistinctCard(xs[..n]);
      var front := set i | 0 <= i < n :: xs[..n][i];
      var all := set i | 0 <= i < |xs| :: xs[i];
      assert all == front + {xs[n]};
      assert xs[n] !in front;
    }
  }
}

=== FILE: users_api.dfy ===
/**
 The HTTP delegate for the repository-backed user service: it passes each call
 to the service and answers with a fixed status. Listing users is guarded by
 the `poc.users.read` role.
 */
module UsersApi {
  import opened Wrappers
  import opened Http
  import opened Membership

  /** The role a caller needs to list users. */
  const ReadRole: string := "poc.users.read"

  /** `GET /users`: the role guard, then 200 with the service's listing. */
  function GetUsers(db: Db, caller: Principal): (r: Response<seq<User>>)
    requires Valid(db)
    ensures r.status == Ok <==> caller.Bearer? && AuthorityPrefix + ReadRole in caller.authorities
    ensures r.status == Ok ==> r.body == Some(Membership.GetUsers(db))
    ensures r.status != Ok ==> r.body == None
    ensures r.status == Unauthorized <==> caller.Anonymous?
    ensures r.status in {Ok, Unauthorized, Forbidden}
  {
    match RolesAllowed(caller, ReadRole)
    case Some(rejection) => Response(rejection, None)
    case None => Response(Ok, Some(Membership.GetUsers(db)))
  }

  /** The authorisation boundary as a client sees it: no token gives 401, a
      token whose roles claim lacks `poc.users.read` gives 403, and a token
      whose claim has it gives 200. */
  lemma GetUsersAuthBoundary(db: Db, roles: set<string>)
    requires Valid(db)
    ensures GetUsers(db, Anonymous).status == Unauthorized
    ensures ReadRole in roles ==> GetUsers(db, Bearer(GrantedAuthorities(roles))).status == Ok
    ensures ReadRole !in roles ==> GetUsers(db, Bearer(GrantedAuthorities(roles))).status == Forbidden
  {
    GuardMatchesClaim(roles, ReadRole);
  }

  /** `POST /users`: 201 with the created user. */
  function CreateUser(db: Db, m: User): (res: (Db, Response<User>))
    requires Valid(db)
    ensures Valid(res.0)
    ensures res.1.status == Created && res.1.body.Some?
    ensures var created := res.1.body.value;
      && created.id.Some? && created.email == m.email && created.name == m.name && created.surname == m.surname
      && created.id.value in res.0.users.rows
    ensures var (db', created) := Membership.CreateUser(db, m);
      res == (db', Response(Created, Some(created)))
  {
    var (db', created) := Membership.CreateUser(db, m);
    (db', Response(Created, Some(created)))
  }

  /** `POST /users/{userId}/accounts/{accountId}`: the membership link, then 200
      with no body, whether or not the ids exist. */
  function LinkUserToAccount(db: Db, userId: int, accountId: int): (res: (Db, Response<()>))
    requires Valid(db)
    ensures Valid(res.0)
    ensures res.1 == Response(Ok, None)
    ensures userId in db.users.rows && accountId in db.accounts.rows ==>
      UserLists(res.0, userId, accountId) && AccountLists(res.0, accountId, userId)
    ensures !(userId in db.users.rows && accountId in db.accounts.rows) ==> res.0 == db
    ensures Symmetric(db) ==> Symmetric(res.0)
    ensures res.0 == LinkWithMembership(db, userId, accountId)
  {
    LinkPreservesSymmetric(db, userId, accountId);
    (LinkWithMembership(db, userId, accountId), Response(Ok, None))
  }

  /** `DELETE /users/{userId}/accounts/{accountId}`: the membership unlink, then
      200 with no body, whether or not the ids exist. */
  function UnlinkUserFromAccount(db: Db, userId: int, accountId: int): (res: (Db, Response<()>))
    requires Valid(db)
    ensures Valid(res.0)
    ensures res.1 == Response(Ok, None)
    ensures !UserLists(res.0, userId, accountId) || res.0 == db
    ensures !AccountLists(res.0, accountId, userId) || res.0 == db
    ensures !(userId in db.users.rows && accountId in db.accounts.rows) ==> res.0 == db
    ensures Symmetric(db) ==> Symmetric(res.0)
    ensures res.0 == UnlinkWithMembership(db, userId, accountId)
  {
    UnlinkPreservesSymmetric(db, userId, accountId);
    (UnlinkWithMembership(db, userId, accountId), Response(Ok, None))
  }
}

=== FILE: wrappers.dfy ===
/** Optional values: `None` stands for a Java `null` reference or an empty `Optional`. */
module Wrappers {

  datatype Option<+T> = None | Some(value: T) {

    /** The wrapped value, or `default` when there is none. */
    function GetOr(default: T): T {
      match this
      case Some(v) => v
      case None => default
    }
  }
}
